=== FILE: README.md ===
# supertext: processor plugins and buffer commands, in Dafny

supertext is a small tkinter text editor. Users extend it with *processors*: Python files that define a class with `process`, `get_name` and `get_description`. The editor keeps every loaded processor in a dict keyed by display name. It can apply the one whose name was added to the dict last, or one picked from a list, to the whole document. Two processors ship with it:

- the word reverser, which reverses every whitespace-separated word;
- the sentence reverser, which reverses the order of the sentences.

This project models:

- the two processors, as pure functions on strings;
- the registry and the commands of `TextEditor` that use it;
- find-and-replace.

The contracts of the editor commands (`LoadModule`, `ApplyLastModule`, `ApplySelected`, `ListedModules`, `ReplaceText`) determine each result for every input: the new registry or buffer and the reported outcome. The two processors are pure functions whose meaning is stated by lemmas: an independent characterisation of the split each one makes, proved sound and unique, and properties of the result such as its inverse. Every operation has such a partner.

Modules:

- `Text` (text.dfy) holds Python's string primitives:
  - Python's whitespace test (`IsWhitespace`, the set `str.isspace` accepts). The code never calls `str.isspace`, but it is the test behind both `str.split()` (word_reverser.py:2) and the class `\s` of the `re` module on str patterns (sentence_reverser.py:4);
  - the ones the code calls directly: `sep.join`, `[::-1]` and `str.replace`;
  - `str.split(sep)`, which the code never calls; it is the reference definition `str.replace` is proved against (`s.replace(old, new) == new.join(s.split(old))`).
- `Plugin` (plugin.dfy) describes loaded Python code abstractly:
  - an operation either returns a value or raises (`Result`);
  - a processor is its `get_name` outcome plus its `process` function;
  - executing a source file yields its top-level definitions in namespace order, or raises.
  - A definition that is a class records which of the three methods it has and what calling the class with no arguments does.
- `WordReverser` (word_reverser.dfy) covers `reverse_words`.
  - `str.split()` is a tokenizer into whitespace gaps and words.
  - An independent predicate (`Tokenization`) characterises the split, and lemmas prove the tokenizer meets it and is the only split that does.
- `SentenceReverser` (sentence_reverser.dfy) covers `reverse_sentences`.
  - `re.split(r'(?<=[.!?])\s+', text)` is an explicit scanner that carries a "previous character was a terminator" flag (the lookbehind) and consumes whole whitespace runs (the greedy `\s+`).
  - An independent predicate (`SentenceSplit`) characterises the cut `re.split` makes, and lemmas prove the scanner makes that cut and only that one.
- `TextEditor` (text_editor.dfy) covers the registry and the commands:
  - the registry is a sequence of `(name, processor)` entries with distinct keys, updated the way a Python dict is: a new key is appended, an existing key keeps its slot;
  - `load_module`, `apply_last_module`, the apply button of `manage_modules`, and `replace_text`.
  - The document is the widget's content. `text_area.get(1.0, tk.END)` returns that content plus the widget's final newline (`WidgetText`). That longer string is what processors and the replacement receive.

Two behaviours of the code are worth stating up front, and the model follows the code in both:

- **Reloading a name does not make it the most recent.** `loaded_modules[name] = processor` on an existing key keeps the key's original dict position. So after a reload, `apply_last_module` still applies whichever name was *first* inserted last (`ReloadKeepsPlace`, `ReloadIsNotMostRecent`).
- **Names are not checked.** Nothing requires a processor's name to be non-empty, and the model does not either.

## Model

| member | source | states |
|---|---|---|
| Text.WhitespaceSpan | word_reverser.py:2 | the length of the longest prefix of whitespace characters (the run `str.split()` and `\s+` skip): every character before it is whitespace and the next one is not |
| Text.Reverse | word_reverser.py:3 | `[::-1]`: same length, element `i` of the result is element `n-1-i` of the input |
| Text.ReverseInvolution | word_reverser.py:3 | reversing twice gives the original sequence back |
| Text.JoinLength | word_reverser.py:4 | `sep.join(parts)` is as long as the parts together plus one separator between each pair of neighbours |
| Text.JoinAsInterleave | word_reverser.py:4 | `sep.join(parts)` is the parts with empty outer gaps and `sep` in each inner gap |
| Text.SplitOn | text_editor.py:77 | the pieces of `s.split(sep)` are at least one, and joining them with `sep` gives `s` back |
| Text.SplitOnLeftmost | text_editor.py:77 | no occurrence of the separator starts inside any piece, so the cuts are at the leftmost non-overlapping occurrences |
| Text.SplitOnUnique | text_editor.py:77 | any pieces in which no occurrence of the separator starts inside a piece are exactly what `s.split(sep)` returns for their join, so the leftmost cut is the only one |
| Text.ReplaceIsJoinOfSplit | text_editor.py:77 | the left-to-right scan of `str.replace` equals `replacement.join(s.split(target))` |
| Text.ReplaceWithoutOccurrence | text_editor.py:77 | when the target does not occur, `str.replace` returns the string unchanged |
| WordReverser.WordSpan | word_reverser.py:2 | the length of the longest prefix with no whitespace: every character before it is non-whitespace and the next one is whitespace |
| WordReverser.TokenizeSound | word_reverser.py:2 | `text.split()` yields non-empty words with no whitespace, and the gaps between them are whitespace, non-empty between words |
| WordReverser.TokenizeLossless | word_reverser.py:2 | gaps and words put back together give the text exactly |
| WordReverser.TokenizeUnique | word_reverser.py:2 | any cut of a text into whitespace gaps and words is the one `text.split()` makes |
| WordReverser.SplitJoin | word_reverser.py:2 | splitting a single-space join of words gives back those words |
| WordReverser.SplitIgnoresTrailingWhitespace | word_reverser.py:2 | whitespace appended to a text does not change its words |
| WordReverser.SplitSkipsLeadingWhitespace | word_reverser.py:2 | leading whitespace does not change the words |
| WordReverser.SplitEmptyIff | word_reverser.py:2 | the text has no words exactly when it is all whitespace |
| WordReverser.ReverseWordsTokens | word_reverser.py:1-4 | the output has as many words as the input, and output word `k` is input word `k` reversed |
| WordReverser.ReverseWordsEmpty | word_reverser.py:1-4 | the output is `""` exactly when the input is empty or all whitespace |
| WordReverser.ReverseWordsNormalised | word_reverser.py:4 | the output has no leading or trailing whitespace, and its only whitespace is single spaces between words |
| WordReverser.ReverseWordsLength | word_reverser.py:3-4 | the output length is the sum of the word lengths plus one per pair of neighbouring words |
| WordReverser.ReverseWordsTwice | word_reverser.py:1-4 | applying it twice returns the input if and only if the input is already normalised |
| WordReverser.ReverseWordsIgnoresTrailingWhitespace | word_reverser.py:1-4 | trailing whitespace in the input does not change the output |
| WordReverser.ReverseWordsOfJoin | word_reverser.py:1-4 | on a single-space join of words, the output is the single-space join of the reversed words |
| WordReverser.ReverseWordsExample | word_reverser.py:1-4 | "hello world" becomes "olleh dlrow" |
| WordReverser.InstanceBehaviour | word_reverser.py:6-13 | `WordReverser().get_name()` is "Word Reverser" and `process` is `reverse_words` |
| SentenceReverser.ScanFirstPiece | sentence_reverser.py:4 | the first piece is a prefix of the text |
| SentenceReverser.ScanLossless | sentence_reverser.py:4 | pieces and consumed separators put back together give the text exactly |
| SentenceReverser.ScanSound | sentence_reverser.py:4 | each separator is a whole whitespace run right after `.`, `!` or `?`, and no piece holds a whitespace character right after one |
| SentenceReverser.ScanUnique | sentence_reverser.py:4 | any such cut of a text is the one the scanner makes |
| SentenceReverser.ScanCount | sentence_reverser.py:4 | there is one separator per whitespace character that directly follows a terminator |
| SentenceReverser.SentencesSound | sentence_reverser.py:4 | the split of a whole text is lossless and a `re.split` cut, and a separator never starts at index 0 |
| SentenceReverser.PiecesHaveNoBoundary | sentence_reverser.py:4 | no piece contains a whitespace character directly after `.`, `!` or `?` |
| SentenceReverser.ReverseSentencesOfSplit | sentence_reverser.py:3-6 | for any `re.split` cut of a text, the output is its pieces in reverse order joined by single spaces |
| SentenceReverser.SentenceCount | sentence_reverser.py:4 | the number of pieces is the number of boundaries plus one |
| SentenceReverser.NoBoundaryUnchanged | sentence_reverser.py:3-6 | the text is one piece exactly when it has no boundary, and then, including the empty text, it is returned unchanged |
| SentenceReverser.ReverseSentencesExample | sentence_reverser.py:3-6 | "A. B! C?" becomes "C? B! A." |
| SentenceReverser.TrailingBoundaryExample | sentence_reverser.py:3-6 | "A. " becomes " A.": the empty last piece moves to the front |
| SentenceReverser.NoPunctuationExample | sentence_reverser.py:3-6 | "no punctuation here" is returned unchanged |
| SentenceReverser.InstanceBehaviour | sentence_reverser.py:8-15 | `SentenceReverser().get_name()` is "Sentence Reverser" and `process` is `reverse_sentences` |
| TextEditor.IndexOf | text_editor.py:151 | the position of a key, found exactly when the key is registered |
| TextEditor.Lookup | text_editor.py:151 | `loaded_modules[name]` fails exactly when the name is not a key, and otherwise returns the processor stored at the entry holding that name |
| TextEditor.Assign | text_editor.py:128 | a dict store: a new name is appended, so the count grows by one; an existing name keeps its place and the count. The name then maps to the new processor, and every other entry keeps its value and position |
| TextEditor.FirstConforming | text_editor.py:125-127 | picks the first definition in namespace order that is a class with `process`, `get_name` and `get_description`, and none when no definition qualifies |
| TextEditor.LoadModule | text_editor.py:114-134 | a cancelled dialog is reported as such; an execution error, a file without a qualifying class, a raising constructor and a raising `get_name` each fail with their own message and leave the registry as it was; a load succeeds exactly when the first qualifying class's constructor and `get_name` both return, and then stores that instance under that name with dict semantics |
| TextEditor.LoadRegistersFirstConforming | text_editor.py:125-130 | the first qualifying class is instantiated and stored under its `get_name()` |
| TextEditor.LoadWithoutProcessor | text_editor.py:132-134 | a file with no qualifying class fails with "Module does not contain a valid processor class" and leaves the registry unchanged |
| TextEditor.LoadExecutionRaises | text_editor.py:119-134 | a file whose execution raises fails with that error and leaves the registry unchanged |
| TextEditor.LoadNameRaises | text_editor.py:125-134 | when `get_name()` of the first qualifying class's instance raises, the load fails with that error and nothing is registered |
| TextEditor.LoadDoesNotFallBack | text_editor.py:125-134 | when the first qualifying class's constructor raises, the load fails, and later classes are not tried |
| TextEditor.LoadKeepsKeys | text_editor.py:128 | loading never removes or reorders names: the old key list is a prefix of the new one |
| TextEditor.ReloadKeepsPlace | text_editor.py:128 | re-loading a registered name leaves the key list unchanged |
| TextEditor.ReloadIsNotMostRecent | text_editor.py:128 | re-loading a registered name keeps the registry's size and its last key, so the reloaded name becomes the target of `apply_last_module` only if it already was |
| TextEditor.LoadTwice | text_editor.py:128 | two loads under one name leave one entry, holding the second processor |
| TextEditor.RunProcessor | text_editor.py:152-155 | the buffer is replaced by `process(widget text)` only when `process` returns; when it raises, the buffer is untouched |
| TextEditor.ApplyLastModule | text_editor.py:161-172 | with no modules, nothing changes and `NoModules` is reported; otherwise the processor of the last entry runs on the widget text, and the buffer becomes its output (`Applied`) exactly when it returns, or stays as it was when it raises |
| TextEditor.ListedModules | text_editor.py:144-145 | the list shows the registered names in the dict's key order, one line per entry |
| TextEditor.ApplySelected | text_editor.py:147-156 | with no selection, nothing changes; a selected name that is not registered gives `UnknownModule`; otherwise the selected name's processor runs on the widget text, and the buffer becomes its output (`Applied`) exactly when it returns, or stays as it was when it raises |
| TextEditor.ListedNamesResolve | text_editor.py:144-151 | modules loaded while the list is open never make a listed name fail to resolve |
| TextEditor.ReplaceText | text_editor.py:72-79 | as written: if either answer is missing or empty, nothing changes; otherwise the content becomes the widget text, final newline included, cut at the leftmost occurrences of the target and joined with the replacement |
| TextEditor.ReplaceTextIntended | text_editor.py:72-79 | the corrected command: if either answer is missing or empty, nothing changes; otherwise the content becomes the document cut at the leftmost occurrences of the target and joined with the replacement |
| TextEditor.ReplaceTextIntendedMeaning | text_editor.py:75-79 | the corrected result is the document split at the leftmost occurrences of the target and joined with the replacement, and it is unchanged when the target does not occur |
| TextEditor.ReplaceAppendNewline | text_editor.py:76-77 | a target without a newline never matches across an appended newline |
| TextEditor.ReplaceTextAddsNewline | text_editor.py:76-79 | as written, every replace whose target has no newline yields the intended result plus one extra trailing newline |
| TextEditor.ReplaceTextCounterexample | text_editor.py:76-79 | replacing "x" by "y" in "a" yields "a\n" as written and "a" as intended |
| TextEditor.LoadAndApplyWordReverser | text_editor.py:114-172 | loading word_reverser.py under a new name, then applying the last module, reverses the document's words; the widget newline disappears in the split |
| TextEditor.LoadAndApplySentenceReverser | text_editor.py:114-172 | loading sentence_reverser.py under a new name, then applying the last module, reverses the sentences of the widget text, final newline included |
| TextEditor.SentenceReverserNewlineExample | text_editor.py:168-171 | through the editor, "A. B." becomes " B. A.": the widget newline after the last terminator is a boundary of its own |

## Left out

- The tkinter user interface is not modelled: menus, key bindings, message boxes, the font dialog, word wrap and the status bar. The messages are represented by outcome values only (`LoadOutcome`, `ApplyOutcome`).
- File handling is not modelled: new, open, save and print, the file dialogs and `os.startfile`.
  - The load dialog is a parameter: the chosen file, or none when cancelled.
  - The "Find" and "Replace" prompts are parameters too: `None` is a cancelled prompt.
- The Python import machinery is not modelled. `spec_from_file_location`, `module_from_spec` and `exec_module` are represented by `SourceFile.execution`: the definitions in namespace order, or the exception they raised. The module files as `Source` constants list the entries CPython puts first (`__name__`, `__builtins__`, and so on) ahead of the file's own names.
- The undo/redo, cut/copy/paste and find commands are operations the Tk widget performs, so they are not modelled. Inserting the date and time depends on the clock, so it is left out as well.
- main.py is not modelled. It is an earlier copy of the editor without the registry, and its `replace_text` (main.py:82-90) is the same code as text_editor.py:72-79.
- `get_description` is never called by the editor. Only whether it is present matters, and that is what `Definition` records.
- `load_module` calls `get_name()` twice: once to store the processor and once for the message. A processor's name outcome is a single value here, so both calls give the same answer.
- A `get_name()` that returns something other than a string, an unhashable key, and a `process` that returns something other than a string are not modelled. Exceptions raised by `hasattr` itself are not modelled either. Every processor is a `string -> Result<string>` function.
- `Result.Raised` stands for an `Exception`, the class `load_module` catches. `SystemExit`, `KeyboardInterrupt` and other `BaseException`s that are not `Exception`s escape `load_module`; they are not modelled.
- `process` is not wrapped in `try` by `apply_last_module` or `apply_module`. A raise there is `ProcessRaised`: the exception reaches Tk's callback handler before the buffer is touched.
- Python strings can hold lone surrogate code points (U+D800 to U+DFFF); Dafny's `char` cannot. Strings containing them are not modelled. On every string the model can represent, `[::-1]`, `split()`, the sentence scanner and `str.replace` behave as in Python.
- Tk converts some characters on insert, which is not modelled: the document is treated as whatever string was last written.
- Text.Replace: the target must be non-empty. `replace_text` never passes an empty target, and Python's special case for an empty target (inserting the replacement between every pair of characters) is not modelled.
- The manage window's list is passed in as the names it showed when it opened. Tk's `curselection` only returns indexes of that list, so `ApplySelected` requires a valid index.

## Findings

| source | as written | input that shows it | evidently intended | confidence | as-written member | corrected member |
|---|---|---|---|---|---|---|
| text_editor.py:76-79 | the replacement runs on `text_area.get(1.0, tk.END)`, which ends with the widget's own newline, and the result, that newline included, is inserted as the new content | document "a", find "x", replace "y": the document becomes "a\n", and every further replace appends another newline | replace occurrences in the document only, leaving it unchanged when the target does not occur | medium, not executed (depends on Tk's `get` including the final newline, as documented for `end`) | TextEditor.ReplaceText, TextEditor.ReplaceTextCounterexample | TextEditor.ReplaceTextIntended, TextEditor.ReplaceTextIntendedMeaning |

=== FILE: plugin.dfy ===
/**
 * The shape of loaded code as the editor sees it. Executing a plugin file is
 * not modelled: a file is represented by what its execution produced, either
 * the namespace it defined or the exception its top-level code raised.
 */
module Plugin {

  /** The outcome of one call into loaded code: a value, or the text
      (`str(e)`) of the exception it raised. */
  datatype Result<T> = Ok(value: T) | Raised(error: string)

  /** An instance of a processor class. `getName` is the outcome of calling
      `get_name()` on it and `process` the outcome of calling `process(text)`.
      `get_description()` is never called by the editor. */
  datatype Processor = Processor(getName: Result<string>, process: string -> Result<string>)

  /** One entry of a loaded module's namespace (`module.__dict__`), in the
      order the namespace enumerates it. A class records which of the three
      attributes `hasattr` finds on it and what calling it with no arguments
      does; anything else (functions, imported modules, the `__name__`-style
      entries Python adds) is `Other`. */
  datatype Definition =
    | Class(key: string, hasProcess: bool, hasGetName: bool, hasGetDescription: bool,
            instantiate: Result<Processor>)
    | Other(key: string)

  /** A chosen plugin file: the namespace its execution produced, or the
      exception raised while locating, reading or executing it. */
  datatype SourceFile = SourceFile(execution: Result<seq<Definition>>)

  /** The test of text_editor.py's discovery loop: `isinstance(obj, type)` and
      all three of `process`, `get_name`, `get_description` present. */
  predicate Conforms(d: Definition) {
    d.Class? && d.hasProcess && d.hasGetName && d.hasGetDescription
  }
}

=== FILE: sentence_reverser.dfy ===
/**
 * The sentence reverser plugin: `re.split(r'(?<=[.!?])\s+', text)`, the
 * pieces in reverse order, joined with single spaces.
 *
 * The regular expression is modelled as a left-to-right scanner. A match can
 * only start where the previous character is `.`, `!` or `?` (the
 * lookbehind), which is never index 0 and never inside a whitespace run, and
 * `\s+` is greedy, so every match consumes a whole run.
 */
module SentenceReverser {
  import opened Text
  import opened Plugin

  /** The character class `[.!?]` of the lookbehind. */
  predicate IsTerminator(c: char) {
    c == '.' || c == '!' || c == '?'
  }

  /** Scans `s`, where `afterTerminator` says whether the character just
      before `s` is a terminator, into the pieces `re.split` returns and the
      separators it consumed. */
  function Scan(s: string, afterTerminator: bool): (r: (seq<string>, seq<string>))
    ensures |r.0| == |r.1| + 1
    decreases |s|
  {
    if |s| == 0 then
      ([""], [])
    else if afterTerminator && IsWhitespace(s[0]) then
      // a match: the whole whitespace run is the separator
      var n := WhitespaceSpan(s);
      var tail := Scan(s[n..], false);
      ([""] + tail.0, [s[..n]] + tail.1)
    else
      // no match here: the character belongs to the current piece
      var tail := Scan(s[1..], IsTerminator(s[0]));
      ([[s[0]] + tail.0[0]] + tail.0[1..], tail.1)
  }

  /** `re.split(r'(?<=[.!?])\s+', text)` */
  function Sentences(text: string): seq<string> {
    Scan(text, false).0
  }

  /** The separators the split consumed, in order. */
  function Separators(text: string): seq<string> {
    Scan(text, false).1
  }

  /** `reverse_sentences(text)` of sentence_reverser.py. */
  function ReverseSentences(text: string): string {
    Join(Reverse(Sentences(text)), " ")
  }

  // ---------------------------------------------------------------------------
  // The split, characterised independently of the scanner

  /** A piece that a separator may follow: it ends in a terminator, or it is
      empty and a terminator comes just before it. */
  predicate EndsSentence(p: string, afterTerminator: bool) {
    if |p| == 0 then afterTerminator else IsTerminator(p[|p| - 1])
  }

  /** No whitespace character in `p` directly follows a terminator. */
  predicate BoundaryFree(p: string, afterTerminator: bool) {
    && (|p| > 0 && afterTerminator ==> !IsWhitespace(p[0]))
    // two bound indices instead of `p[i + 1]`, so that the trigger `p[i]`
    // does not produce a new `p[i + 1]` term and loop
    && (forall i, j :: 0 <= i < |p| && 0 <= j < |p| && j == i + 1 ==>
          !(IsTerminator(p[i]) && IsWhitespace(p[j])))
  }

  /** `Interleave(pieces, seps)` is the cut `re.split` makes: every separator
      is a non-empty whitespace run right after a terminator and running up
      to the next non-whitespace character, and no piece holds a whitespace
      character right after a terminator. */
  predicate SentenceSplit(pieces: seq<string>, seps: seq<string>, afterTerminator: bool) {
    && |pieces| == |seps| + 1
    && (forall k :: 0 <= k < |seps| ==> |seps[k]| > 0 && AllWhitespace(seps[k]))
    && (forall k :: 0 <= k < |seps| ==> EndsSentence(pieces[k], k == 0 && afterTerminator))
    && (forall k :: 0 < k < |pieces| ==> |pieces[k]| == 0 || !IsWhitespace(pieces[k][0]))
    && (forall k :: 0 <= k < |pieces| ==> BoundaryFree(pieces[k], k == 0 && afterTerminator))
  }

  /** The number of places the pattern matches: whitespace characters right
      after a terminator (the first character counts when `afterTerminator`). */
  function CountBoundaries(s: string, afterTerminator: bool): nat
    decreases |s|
  {
    if |s| == 0 then 0
    else
      var here := if afterTerminator && IsWhitespace(s[0]) then 1 else 0;
      here + CountBoundaries(s[1..], IsTerminator(s[0]))
  }

  // ---------------------------------------------------------------------------
  // Building and taking apart cuts

  /** A character that does not start a match joins the first piece. */
  lemma SplitConsChar(c: char, pieces: seq<string>, seps: seq<string>, afterTerminator: bool)
    requires SentenceSplit(pieces, seps, IsTerminator(c))
    requires !(afterTerminator && IsWhitespace(c))
    ensures SentenceSplit([[c] + pieces[0]] + pieces[1..], seps, afterTerminator)
  {
    var p := [c] + pieces[0];
    var ps := [p] + pieces[1..];
    assert forall k :: 1 <= k < |ps| ==> ps[k] == pieces[k];
    assert BoundaryFree(p, afterTerminator) by {
      forall i, j | 0 <= i < |p| && 0 <= j < |p| && j == i + 1
        ensures !(IsTerminator(p[i]) && IsWhitespace(p[j]))
      {
        if i > 0 {
          assert p[i] == pieces[0][i - 1] && p[j] == pieces[0][j - 1];
        }
      }
    }
    assert |seps| > 0 ==> EndsSentence(p, afterTerminator) by {
      if |seps| > 0 && |pieces[0]| > 0 {
        assert p[|p| - 1] == pieces[0][|pieces[0]| - 1];
      }
    }
  }

  /** A whitespace run right after a terminator is a separator in front of the cut. */
  lemma SplitConsSeparator(sep: string, pieces: seq<string>, seps: seq<string>)
    requires SentenceSplit(pieces, seps, false)
    requires |sep| > 0 && AllWhitespace(sep)
    requires |pieces[0]| == 0 || !IsWhitespace(pieces[0][0])
    ensures SentenceSplit([""] + pieces, [sep] + seps, true)
  {
    var ps, ss := [""] + pieces, [sep] + seps;
    assert forall k :: 1 <= k < |ps| ==> ps[k] == pieces[k - 1];
    assert forall k :: 1 <= k < |ss| ==> ss[k] == seps[k - 1];
  }

  /** The first character of a non-empty first piece, taken off. */
  lemma SplitTailChar(pieces: seq<string>, seps: seq<string>, afterTerminator: bool)
    requires SentenceSplit(pieces, seps, afterTerminator) && |pieces[0]| > 0
    ensures !(afterTerminator && IsWhitespace(pieces[0][0]))
    ensures SentenceSplit([pieces[0][1..]] + pieces[1..], seps, IsTerminator(pieces[0][0]))
  {
    var p0 := pieces[0];
    var p := p0[1..];
    var ps := [p] + pieces[1..];
    assert forall k :: 1 <= k < |ps| ==> ps[k] == pieces[k];
    assert BoundaryFree(p, IsTerminator(p0[0])) by {
      if |p| > 0 {
        assert p0[0] == p0[0] && p0[1] == p[0];
      }
      forall i, j | 0 <= i < |p| && 0 <= j < |p| && j == i + 1
        ensures !(IsTerminator(p[i]) && IsWhitespace(p[j]))
      {
        assert p[i] == p0[i + 1] && p[j] == p0[j + 1];
      }
    }
    assert |seps| > 0 ==> EndsSentence(p, IsTerminator(p0[0])) by {
      if |seps| > 0 && |p| > 0 {
        assert p[|p| - 1] == p0[|p0| - 1];
      }
    }
  }

  /** An empty first piece followed by a separator, taken off. */
  lemma SplitTailSeparator(pieces: seq<string>, seps: seq<string>, afterTerminator: bool)
    requires SentenceSplit(pieces, seps, afterTerminator) && |pieces[0]| == 0 && |seps| > 0
    ensures afterTerminator
    ensures SentenceSplit(pieces[1..], seps[1..], false)
  {
    assert EndsSentence(pieces[0], afterTerminator);
    var ps, ss := pieces[1..], seps[1..];
    assert forall k :: 0 <= k < |ps| ==> ps[k] == pieces[k + 1];
    assert forall k :: 0 <= k < |ss| ==> ss[k] == seps[k + 1];
  }

  // ---------------------------------------------------------------------------
  // The scanner makes exactly that cut

  /** The first piece is a prefix of the scanned text. */
  lemma {:induction false} ScanFirstPiece(s: string, afterTerminator: bool)
    ensures Scan(s, afterTerminator).0[0] <= s
    decreases |s|
  {
    if |s| > 0 && !(afterTerminator && IsWhitespace(s[0])) {
      ScanFirstPiece(s[1..], IsTerminator(s[0]));
      assert s == [s[0]] + s[1..];
    }
  }

  /** Pieces and separators put back together give the text. */
  lemma {:induction false} ScanLossless(s: string, afterTerminator: bool)
    ensures Interleave(Scan(s, afterTerminator).0, Scan(s, afterTerminator).1) == s
    decreases |s|
  {
    if |s| == 0 {
    } else if afterTerminator && IsWhitespace(s[0]) {
      var n := WhitespaceSpan(s);
      var tail := Scan(s[n..], false);
      ScanLossless(s[n..], false);
      var ps, ss := [""] + tail.0, [s[..n]] + tail.1;
      assert Scan(s, afterTerminator) == (ps, ss);
      assert ps[1..] == tail.0 && ss[1..] == tail.1;
      assert s == "" + s[..n] + s[n..];
    } else {
      var tail := Scan(s[1..], IsTerminator(s[0]));
      ScanLossless(s[1..], IsTerminator(s[0]));
      InterleaveFront([s[0]], tail.0[0], tail.0[1..], tail.1);
      assert [tail.0[0]] + tail.0[1..] == tail.0;
      assert s == [s[0]] + s[1..];
    }
  }

  /** The scanner's cut is a `re.split` cut. */
  lemma {:induction false} ScanSound(s: string, afterTerminator: bool)
    ensures SentenceSplit(Scan(s, afterTerminator).0, Scan(s, afterTerminator).1, afterTerminator)
    decreases |s|
  {
    if |s| == 0 {
    } else if afterTerminator && IsWhitespace(s[0]) {
      var n := WhitespaceSpan(s);
      var tail := Scan(s[n..], false);
      ScanSound(s[n..], false);
      ScanFirstPiece(s[n..], false);
      assert |tail.0[0]| > 0 ==> tail.0[0][0] == s[n..][0] == s[n];
      SplitConsSeparator(s[..n], tail.0, tail.1);
    } else {
      var tail := Scan(s[1..], IsTerminator(s[0]));
      ScanSound(s[1..], IsTerminator(s[0]));
      SplitConsChar(s[0], tail.0, tail.1, afterTerminator);
    }
  }

  /** Any `re.split` cut of a text is the one the scanner makes. */
  lemma {:induction false} ScanUnique(pieces: seq<string>, seps: seq<string>, afterTerminator: bool)
    requires SentenceSplit(pieces, seps, afterTerminator)
    ensures Scan(Interleave(pieces, seps), afterTerminator) == (pieces, seps)
    decreases |Interleave(pieces, seps)|
  {
    if |pieces[0]| > 0 {
      var p0 := pieces[0];
      SplitTailChar(pieces, seps, afterTerminator);
      CharShift(pieces, seps);
      ScanUnique([p0[1..]] + pieces[1..], seps, IsTerminator(p0[0]));
      UniqueCharStep(pieces, seps, afterTerminator);
    } else if |seps| > 0 {
      SplitTailSeparator(pieces, seps, afterTerminator);
      SeparatorShift(pieces, seps);
      ScanUnique(pieces[1..], seps[1..], false);
      UniqueSeparatorStep(pieces, seps);
    } else {
      assert pieces == [""] && seps == [];
    }
  }

  /** The first character of the first piece is the first character of the text. */
  lemma CharShift(pieces: seq<string>, seps: seq<string>)
    requires |pieces| == |seps| + 1 && |pieces[0]| > 0
    ensures Interleave(pieces, seps) == [pieces[0][0]] + Interleave([pieces[0][1..]] + pieces[1..], seps)
  {
    var p0 := pieces[0];
    InterleaveFront([p0[0]], p0[1..], pieces[1..], seps);
    HeadTail(p0);
    HeadTail(pieces);
  }

  /** An empty first piece puts the first separator at the front of the text. */
  lemma SeparatorShift(pieces: seq<string>, seps: seq<string>)
    requires |pieces| == |seps| + 1 && |pieces[0]| == 0 && |seps| > 0
    ensures Interleave(pieces, seps) == seps[0] + Interleave(pieces[1..], seps[1..])
  {
  }

  /** `ScanUnique` when the first piece is not empty, given the rest. */
  lemma UniqueCharStep(pieces: seq<string>, seps: seq<string>, afterTerminator: bool)
    requires |pieces| == |seps| + 1 && |pieces[0]| > 0
    requires !(afterTerminator && IsWhitespace(pieces[0][0]))
    requires var ps := [pieces[0][1..]] + pieces[1..];
      Scan(Interleave(ps, seps), IsTerminator(pieces[0][0])) == (ps, seps)
    ensures Scan(Interleave(pieces, seps), afterTerminator) == (pieces, seps)
  {
    var p0 := pieces[0];
    var ps := [p0[1..]] + pieces[1..];
    var s := Interleave(pieces, seps);
    CharShift(pieces, seps);
    ConsParts(p0[0], Interleave(ps, seps));
    assert Scan(s, afterTerminator) == ([[p0[0]] + ps[0]] + ps[1..], seps);
    assert ps[0] == p0[1..] && ps[1..] == pieces[1..];
    HeadTail(p0);
    HeadTail(pieces);
  }

  /** `ScanUnique` when the text starts with a separator, given the rest. */
  lemma UniqueSeparatorStep(pieces: seq<string>, seps: seq<string>)
    requires SentenceSplit(pieces, seps, true) && |pieces[0]| == 0 && |seps| > 0
    requires SentenceSplit(pieces[1..], seps[1..], false)
    requires Scan(Interleave(pieces[1..], seps[1..]), false) == (pieces[1..], seps[1..])
    ensures Scan(Interleave(pieces, seps), true) == (pieces, seps)
  {
    var rest := Interleave(pieces[1..], seps[1..]);
    var s := Interleave(pieces, seps);
    SeparatorShift(pieces, seps);
    assert pieces[1..][0] == pieces[1];
    RestStart(pieces[1..], seps[1..]);
    WhitespaceSpanExact(seps[0], rest);
    assert s[0] == seps[0][0];
    assert Scan(s, true) == ([""] + pieces[1..], [seps[0]] + seps[1..]);
    HeadTail(pieces);
    HeadTail(seps);
  }

  /** What follows a separator does not start with whitespace. */
  lemma RestStart(pieces: seq<string>, seps: seq<string>)
    requires SentenceSplit(pieces, seps, false)
    requires |pieces[0]| == 0 || !IsWhitespace(pieces[0][0])
    ensures var rest := Interleave(pieces, seps); |rest| == 0 || !IsWhitespace(rest[0])
  {
    var rest := Interleave(pieces, seps);
    if |seps| > 0 {
      assert EndsSentence(pieces[0], false);
      assert rest == pieces[0] + (seps[0] + Interleave(pieces[1..], seps[1..]));
      assert rest[0] == pieces[0][0];
    }
  }

  /** Whitespace after whitespace is never a boundary. */
  lemma {:induction false} CountSkipsRun(s: string, m: nat)
    requires m <= |s| && AllWhitespace(s[..m])
    ensures CountBoundaries(s, false) == CountBoundaries(s[m..], false)
    decreases m
  {
    if m > 0 {
      assert s[0] == s[..m][0];
      assert s[1..][..m - 1] == s[..m][1..];
      CountSkipsRun(s[1..], m - 1);
      assert s[1..][m - 1..] == s[m..];
    }
  }

  /** One separator per boundary. */
  lemma {:induction false} ScanCount(s: string, afterTerminator: bool)
    ensures |Scan(s, afterTerminator).1| == CountBoundaries(s, afterTerminator)
    decreases |s|
  {
    if |s| == 0 {
    } else if afterTerminator && IsWhitespace(s[0]) {
      var n := WhitespaceSpan(s);
      ScanCount(s[n..], false);
      assert AllWhitespace(s[1..][..n - 1]);
      CountSkipsRun(s[1..], n - 1);
      assert s[1..][n - 1..] == s[n..];
    } else {
      ScanCount(s[1..], IsTerminator(s[0]));
    }
  }

  // ---------------------------------------------------------------------------
  // Properties of reverse_sentences

  /** The split is lossless and is a `re.split` cut. */
  lemma SentencesSound(text: string)
    ensures |Sentences(text)| == |Separators(text)| + 1
    ensures Interleave(Sentences(text), Separators(text)) == text
    ensures SentenceSplit(Sentences(text), Separators(text), false)
    ensures |Separators(text)| > 0 ==> Sentences(text)[0] != ""
  {
    ScanLossless(text, false);
    ScanSound(text, false);
  }

  /** No piece holds a whitespace character directly after a terminator. */
  lemma PiecesHaveNoBoundary(text: string)
    ensures forall k, i :: 0 <= k < |Sentences(text)| && 0 < i < |Sentences(text)[k]| ==>
      !(IsTerminator(Sentences(text)[k][i - 1]) && IsWhitespace(Sentences(text)[k][i]))
  {
    ScanSound(text, false);
    var ps := Sentences(text);
    forall k, i | 0 <= k < |ps| && 0 < i < |ps[k]|
      ensures !(IsTerminator(ps[k][i - 1]) && IsWhitespace(ps[k][i]))
    {
      assert BoundaryFree(ps[k], k == 0 && false);
    }
  }

  /** Whatever `re.split` cut a text has, reverse_sentences joins its pieces
      back to front with single spaces. */
  lemma ReverseSentencesOfSplit(pieces: seq<string>, seps: seq<string>)
    requires SentenceSplit(pieces, seps, false)
    ensures Sentences(Interleave(pieces, seps)) == pieces
    ensures ReverseSentences(Interleave(pieces, seps)) == Join(Reverse(pieces), " ")
  {
    ScanUnique(pieces, seps, false);
  }

  /** There is one piece more than there are boundaries. */
  lemma SentenceCount(text: string)
    ensures |Sentences(text)| == CountBoundaries(text, false) + 1
  {
    ScanCount(text, false);
  }

  /** The text is one piece exactly when it has no whitespace right after a
      terminator, and then it comes back unchanged. */
  lemma NoBoundaryUnchanged(text: string)
    ensures |Sentences(text)| == 1 <==> BoundaryFree(text, false)
    ensures BoundaryFree(text, false) ==> ReverseSentences(text) == text
  {
    SentencesSound(text);
    if BoundaryFree(text, false) {
      assert SentenceSplit([text], [], false);
      ReverseSentencesOfSplit([text], []);
      assert Interleave([text], []) == text;
    }
  }

  lemma ThreeSentencesSplit()
    ensures SentenceSplit(["A.", "B!", "C?"], [" ", " "], false)
  {
    var ps := ["A.", "B!", "C?"];
    assert BoundaryFree(ps[0], true);
    assert BoundaryFree(ps[1], false);
    assert BoundaryFree(ps[2], false);
  }

  lemma ThreeSentencesJoined()
    ensures Interleave(["A.", "B!", "C?"], [" ", " "]) == "A. B! C?"
    ensures Join(Reverse(["A.", "B!", "C?"]), " ") == "C? B! A."
  {
    assert Reverse(["A.", "B!", "C?"]) == ["C?", "B!", "A."];
  }

  lemma ReverseSentencesExample()
    ensures ReverseSentences("A. B! C?") == "C? B! A."
  {
    ThreeSentencesSplit();
    ThreeSentencesJoined();
    ReverseSentencesOfSplit(["A.", "B!", "C?"], [" ", " "]);
  }

  /** A terminator followed by trailing whitespace leaves an empty last piece,
      so the output starts with a space. */
  lemma TrailingBoundaryExample()
    ensures ReverseSentences("A. ") == " A."
  {
    TrailingBoundarySplit();
    ReverseSentencesOfSplit(["A.", ""], [" "]);
    TrailingBoundaryJoined();
  }

  lemma TrailingBoundarySplit()
    ensures SentenceSplit(["A.", ""], [" "], false)
  {
    assert BoundaryFree("A.", true);
  }

  lemma TrailingBoundaryJoined()
    ensures Interleave(["A.", ""], [" "]) == "A. "
    ensures Join(Reverse(["A.", ""]), " ") == " A."
  {
    assert Reverse(["A.", ""]) == ["", "A."];
  }

  lemma NoPunctuationExample()
    ensures ReverseSentences("no punctuation here") == "no punctuation here"
  {
    var t := "no punctuation here";
    assert forall i :: 0 <= i < |t| ==> !IsTerminator(t[i]);
    assert BoundaryFree(t, false);
    NoBoundaryUnchanged(t);
  }

  // ---------------------------------------------------------------------------
  // The plugin as the editor loads it

  const Name := "Sentence Reverser"

  /** A `SentenceReverser()` instance: both methods are static and never raise. */
  const Instance := Processor(Ok(Name), (text: string) => Ok(ReverseSentences(text)))

  /** The namespace sentence_reverser.py defines, in definition order after
      the entries Python puts first. */
  const Source := SourceFile(Ok([
    Other("__name__"), Other("__doc__"), Other("__package__"), Other("__loader__"),
    Other("__spec__"), Other("__file__"), Other("__cached__"), Other("__builtins__"),
    Other("re"), Other("reverse_sentences"),
    Class("SentenceReverser", true, true, true, Ok(Instance))
  ]))

  /** `SentenceReverser.process` is `reverse_sentences` and `get_name` is "Sentence Reverser". */
  lemma InstanceBehaviour(text: string)
    ensures Instance.getName == Ok("Sentence Reverser")
    ensures Instance.process(text) == Ok(ReverseSentences(text))
  {
  }
}

=== FILE: text.dfy ===
/**
 * String primitives shared by the editor and its two built-in processors,
 * stated with Python's meaning: what `str.isspace` and the regular-expression
 * class `\s` count as whitespace, `sep.join(parts)`, slicing with `[::-1]`,
 * `str.split(sep)` and `str.replace(target, replacement)`.
 */
module Text {

  /** Python's `str.isspace()` for one character; CPython's `re` uses the same
      test for `\s` on str patterns. */
  predicate IsWhitespace(c: char) {
    || ('\t' <= c <= '\r')             // \t \n \v \f \r
    || ('\U{1C}' <= c <= '\U{1F}')     // file, group, record and unit separators
    || c == ' '
    || c == '\U{85}' || c == '\U{A0}' || c == '\U{1680}'
    || ('\U{2000}' <= c <= '\U{200A}')
    || c == '\U{2028}' || c == '\U{2029}' || c == '\U{202F}' || c == '\U{205F}' || c == '\U{3000}'
  }

  predicate AllWhitespace(s: string) {
    forall i :: 0 <= i < |s| ==> IsWhitespace(s[i])
  }

  /** Length of the longest whitespace prefix of `s`. */
  function WhitespaceSpan(s: string): (n: nat)
    ensures n <= |s|
    ensures forall i :: 0 <= i < n ==> IsWhitespace(s[i])
    ensures n < |s| ==> !IsWhitespace(s[n])
  {
    if |s| == 0 || !IsWhitespace(s[0]) then 0 else 1 + WhitespaceSpan(s[1..])
  }

  /** The whitespace prefix of `a + b` is exactly `a` when `a` is whitespace
      and `b` does not start with whitespace. */
  lemma WhitespaceSpanExact(a: string, b: string)
    requires AllWhitespace(a)
    requires |b| == 0 || !IsWhitespace(b[0])
    ensures WhitespaceSpan(a + b) == |a|
    ensures (a + b)[..|a|] == a && (a + b)[|a|..] == b
  {
    assert forall i :: 0 <= i < |a| ==> (a + b)[i] == a[i];
    assert |b| > 0 ==> (a + b)[|a|] == b[0];
  }

  /** `outer[0] + inner[0] + outer[1] + ... + inner[n-1] + outer[n]`: a string cut at `n` places. */
  function Interleave(outer: seq<string>, inner: seq<string>): string
    requires |outer| == |inner| + 1
    decreases |inner|
  {
    if |inner| == 0 then outer[0]
    else outer[0] + inner[0] + Interleave(outer[1..], inner[1..])
  }

  lemma InterleaveCons(g: string, w: string, outer: seq<string>, inner: seq<string>)
    requires |outer| == |inner| + 1
    ensures Interleave([g] + outer, [w] + inner) == g + w + Interleave(outer, inner)
  {
    assert ([g] + outer)[1..] == outer && ([w] + inner)[1..] == inner;
  }

  /** Python's `sep.join(parts)`. */
  function Join(parts: seq<string>, sep: string): string
    decreases |parts|
  {
    if |parts| == 0 then ""
    else if |parts| == 1 then parts[0]
    else parts[0] + sep + Join(parts[1..], sep)
  }

  /** A non-empty sequence is its head followed by its tail. */
  lemma HeadTail<T>(xs: seq<T>)
    requires |xs| > 0
    ensures xs == [xs[0]] + xs[1..]
  {
  }

  /** The head and tail of a sequence built by putting `x` in front. */
  lemma ConsParts<T>(x: T, xs: seq<T>)
    ensures ([x] + xs)[0] == x && ([x] + xs)[1..] == xs
  {
  }

  /** A string is what comes before index `n`, the character at `n`, and the rest. */
  lemma CutAround(t: string, n: nat)
    requires n < |t|
    ensures t == t[..n] + [t[n]] + t[n + 1..]
  {
    assert t[n..] == [t[n]] + t[n + 1..];
    assert t == t[..n] + t[n..];
  }

  lemma JoinCons(part: string, rest: seq<string>, sep: string)
    requires |rest| > 0
    ensures Join([part] + rest, sep) == part + sep + Join(rest, sep)
  {
    assert ([part] + rest)[1..] == rest;
  }

  /** Python's `s[::-1]`, for strings and for lists alike. */
  function Reverse<T>(s: seq<T>): (r: seq<T>)
    ensures |r| == |s|
    ensures forall i :: 0 <= i < |s| ==> r[i] == s[|s| - 1 - i]
  {
    if |s| == 0 then [] else Reverse(s[1..]) + [s[0]]
  }

  lemma ReverseInvolution<T>(s: seq<T>)
    ensures Reverse(Reverse(s)) == s
  {
    assert forall i :: 0 <= i < |s| ==> Reverse(Reverse(s))[i] == s[i];
  }

  function SumLengths(parts: seq<string>): nat
    decreases |parts|
  {
    if |parts| == 0 then 0 else |parts[0]| + SumLengths(parts[1..])
  }

  /** The joined string holds every part plus one separator between neighbours. */
  lemma {:induction false} JoinLength(parts: seq<string>, sep: string)
    ensures |Join(parts, sep)| == SumLengths(parts) + |sep| * (if |parts| == 0 then 0 else |parts| - 1)
    decreases |parts|
  {
    if |parts| > 1 {
      JoinLength(parts[1..], sep);
    }
  }

  /** Prepending characters to the first piece prepends them to the whole. */
  lemma InterleaveFront(a: string, b: string, rest: seq<string>, inner: seq<string>)
    requires |rest| == |inner|
    ensures Interleave([a + b] + rest, inner) == a + Interleave([b] + rest, inner)
  {
    if |inner| > 0 {
      assert ([a + b] + rest)[1..] == rest == ([b] + rest)[1..];
    }
  }

  /** Appending to the whole appends to the last piece. */
  lemma {:induction false} InterleaveAppend(outer: seq<string>, inner: seq<string>, x: string)
    requires |outer| == |inner| + 1
    ensures Interleave(outer, inner) + x == Interleave(outer[..|inner|] + [outer[|inner|] + x], inner)
    decreases |inner|
  {
    if |inner| > 0 {
      var outer' := outer[..|inner|] + [outer[|inner|] + x];
      InterleaveAppend(outer[1..], inner[1..], x);
      assert outer'[1..] == outer[1..][..|inner| - 1] + [outer[1..][|inner| - 1] + x];
    }
  }

  /** `n` copies of `x`. */
  function Repeat<T>(x: T, n: nat): (r: seq<T>)
    ensures |r| == n
    ensures forall i :: 0 <= i < n ==> r[i] == x
  {
    if n == 0 then [] else [x] + Repeat(x, n - 1)
  }

  /** The cut pattern of `sep.join(parts)`: empty ends and one `sep` between neighbours. */
  function JoinGaps(n: nat, sep: string): (gaps: seq<string>)
    ensures |gaps| == n + 1
  {
    if n == 0 then [""] else [""] + Repeat(sep, n - 1) + [""]
  }

  /** `sep.join(parts)` is `parts` cut apart by `sep`. */
  lemma {:induction false} JoinAsInterleave(parts: seq<string>, sep: string)
    ensures Join(parts, sep) == Interleave(JoinGaps(|parts|, sep), parts)
    decreases |parts|
  {
    if |parts| > 1 {
      var n := |parts|;
      JoinAsInterleave(parts[1..], sep);
      var tail := Repeat(sep, n - 2) + [""];
      assert Repeat(sep, n - 1) == [sep] + Repeat(sep, n - 2);
      assert JoinGaps(n, sep) == [""] + ([sep] + tail);
      assert JoinGaps(n - 1, sep) == [""] + tail;
      InterleaveFront(sep, "", tail, parts[1..]);
      assert sep + "" == sep;
    }
  }

  /** Python's `s.replace(target, replacement)` for a non-empty target:
      scan left to right, replace every non-overlapping occurrence. */
  function Replace(s: string, target: string, replacement: string): string
    requires |target| > 0
    decreases |s|
  {
    if |s| == 0 then ""
    else if target <= s then replacement + Replace(s[|target|..], target, replacement)
    else [s[0]] + Replace(s[1..], target, replacement)
  }

  /** `target` occurs somewhere in `s`. */
  predicate Occurs(s: string, target: string) {
    exists i :: 0 <= i <= |s| && target <= s[i..]
  }

  /** No occurrence of `sep` starts inside `piece` when the piece is followed by `after`. */
  predicate NoEarlyMatch(piece: string, after: string, sep: string) {
    forall i :: 0 <= i < |piece| ==> !(sep <= (piece + after)[i..])
  }

  /** Python's `s.split(sep)` for a non-empty separator: the pieces between the
      leftmost non-overlapping occurrences of `sep`. */
  function SplitOn(s: string, sep: string): (pieces: seq<string>)
    requires |sep| > 0
    ensures |pieces| > 0
    ensures Join(pieces, sep) == s
    decreases |s|
  {
    if |s| == 0 then [""]
    else if sep <= s then
      var tail := SplitOn(s[|sep|..], sep);
      PrefixCut(s, sep);
      [""] + tail
    else
      var tail := SplitOn(s[1..], sep);
      JoinFront(s[0], tail, sep);
      HeadTail(s);
      [[s[0]] + tail[0]] + tail[1..]
  }

  lemma PrefixCut(s: string, prefix: string)
    requires prefix <= s
    ensures s == prefix + s[|prefix|..]
  {
  }

  /** No occurrence of `sep` starts inside a piece, where every piece but the
      last is followed by `sep`. */
  predicate CutAtLeftmost(pieces: seq<string>, sep: string)
    requires |pieces| > 0
  {
    && (forall k :: 0 <= k < |pieces| - 1 ==> NoEarlyMatch(pieces[k], sep, sep))
    && NoEarlyMatch(pieces[|pieces| - 1], "", sep)
  }

  /** The pieces of `s.split(sep)` are cut at the leftmost occurrences: no
      occurrence of `sep` starts inside a piece. */
  lemma {:induction false} SplitOnLeftmost(s: string, sep: string)
    requires |sep| > 0
    ensures CutAtLeftmost(SplitOn(s, sep), sep)
    decreases |s|
  {
    if |s| == 0 {
    } else if sep <= s {
      SplitOnLeftmost(s[|sep|..], sep);
      LeftmostEmptyCons(SplitOn(s[|sep|..], sep), sep);
    } else {
      SplitOnLeftmost(s[1..], sep);
      HeadTail(s);
      LeftmostCons(s[0], SplitOn(s[1..], sep), sep);
    }
  }

  /** The leftmost cut is the only one: any pieces in which no occurrence of
      `sep` starts inside a piece are what `s.split(sep)` returns for their
      join. */
  lemma {:induction false} SplitOnUnique(pieces: seq<string>, sep: string)
    requires |sep| > 0 && |pieces| > 0 && CutAtLeftmost(pieces, sep)
    ensures SplitOn(Join(pieces, sep), sep) == pieces
    decreases |Join(pieces, sep)|
  {
    if |pieces[0]| == 0 && |pieces| == 1 {
      assert pieces == [""];
    } else if |pieces[0]| == 0 {
      JoinDropEmpty(pieces, sep);
      LeftmostTail(pieces, sep);
      SplitOnUnique(pieces[1..], sep);
      UniqueSeparatorCase(pieces, sep);
    } else {
      var rest := [pieces[0][1..]] + pieces[1..];
      JoinShift(pieces, sep);
      LeftmostShift(pieces, sep);
      SplitOnUnique(rest, sep);
      UniqueCharCase(pieces, sep);
    }
  }

  /** A join that starts with an empty piece starts with the separator. */
  lemma JoinDropEmpty(pieces: seq<string>, sep: string)
    requires |pieces| > 1 && pieces[0] == ""
    ensures Join(pieces, sep) == sep + Join(pieces[1..], sep)
  {
  }

  /** Dropping the first piece of a leftmost cut leaves a leftmost cut. */
  lemma LeftmostTail(pieces: seq<string>, sep: string)
    requires |pieces| > 1 && CutAtLeftmost(pieces, sep)
    ensures CutAtLeftmost(pieces[1..], sep)
  {
    assert forall k :: 0 <= k < |pieces| - 1 ==> pieces[1..][k] == pieces[k + 1];
  }

  /** The split of a join starting with the separator, given the split of the rest. */
  lemma UniqueSeparatorCase(pieces: seq<string>, sep: string)
    requires |sep| > 0 && |pieces| > 1 && pieces[0] == ""
    requires Join(pieces, sep) == sep + Join(pieces[1..], sep)
    requires SplitOn(Join(pieces[1..], sep), sep) == pieces[1..]
    ensures SplitOn(Join(pieces, sep), sep) == pieces
  {
    var s := Join(pieces, sep);
    assert s[|sep|..] == Join(pieces[1..], sep);
    HeadTail(pieces);
  }

  /** Moving the first character out of the first piece moves it out of the join. */
  lemma JoinShift(pieces: seq<string>, sep: string)
    requires |pieces| > 0 && |pieces[0]| > 0
    ensures var rest := [pieces[0][1..]] + pieces[1..];
      Join(pieces, sep) == [pieces[0][0]] + Join(rest, sep)
  {
    var rest := [pieces[0][1..]] + pieces[1..];
    JoinFront(pieces[0][0], rest, sep);
    ConsParts(pieces[0][1..], pieces[1..]);
    HeadTail(pieces[0]);
    HeadTail(pieces);
  }

  /** With the first character moved out, the cut stays leftmost, and no
      occurrence of `sep` starts at that character. */
  lemma LeftmostShift(pieces: seq<string>, sep: string)
    requires |sep| > 0 && |pieces| > 0 && |pieces[0]| > 0 && CutAtLeftmost(pieces, sep)
    requires Join(pieces, sep) == [pieces[0][0]] + Join([pieces[0][1..]] + pieces[1..], sep)
    ensures CutAtLeftmost([pieces[0][1..]] + pieces[1..], sep)
    ensures !(sep <= Join(pieces, sep))
  {
    var rest := [pieces[0][1..]] + pieces[1..];
    var after := if |pieces| > 1 then sep else "";
    NoEarlyMatchTail(pieces[0], after, sep);
    assert forall k :: 1 <= k < |rest| ==> rest[k] == pieces[k];
    assert !(sep <= pieces[0] + after) by {
      assert (pieces[0] + after)[0..] == pieces[0] + after;
    }
    if |pieces| > 1 {
      JoinCons(pieces[0], pieces[1..], sep);
      HeadTail(pieces);
      assert (pieces[0] + sep) <= Join(pieces, sep);
    }
  }

  /** A piece with no early match keeps none once its first character is dropped. */
  lemma NoEarlyMatchTail(p: string, after: string, sep: string)
    requires |p| > 0 && NoEarlyMatch(p, after, sep)
    ensures NoEarlyMatch(p[1..], after, sep)
  {
    forall i | 0 <= i < |p| - 1
      ensures !(sep <= (p[1..] + after)[i..])
    {
      assert (p[1..] + after)[i..] == (p + after)[i + 1..];
    }
  }

  /** The split of a join that does not start with `sep`, given the split of the rest. */
  lemma UniqueCharCase(pieces: seq<string>, sep: string)
    requires |sep| > 0 && |pieces| > 0 && |pieces[0]| > 0
    requires Join(pieces, sep) == [pieces[0][0]] + Join([pieces[0][1..]] + pieces[1..], sep)
    requires !(sep <= Join(pieces, sep))
    requires SplitOn(Join([pieces[0][1..]] + pieces[1..], sep), sep) == [pieces[0][1..]] + pieces[1..]
    ensures SplitOn(Join(pieces, sep), sep) == pieces
  {
    var s := Join(pieces, sep);
    var rest := [pieces[0][1..]] + pieces[1..];
    assert s[1..] == Join(rest, sep);
    ConsParts(pieces[0][1..], pieces[1..]);
    HeadTail(pieces[0]);
    HeadTail(pieces);
  }

  /** An empty piece in front of a leftmost cut keeps it leftmost. */
  lemma LeftmostEmptyCons(tail: seq<string>, sep: string)
    requires |tail| > 0 && CutAtLeftmost(tail, sep)
    ensures CutAtLeftmost([""] + tail, sep)
  {
    var r := [""] + tail;
    assert forall k :: 1 <= k < |r| ==> r[k] == tail[k - 1];
  }

  /** A character in front of a leftmost cut, where no occurrence starts at
      that character, keeps it leftmost. */
  lemma LeftmostCons(c: char, tail: seq<string>, sep: string)
    requires |tail| > 0 && CutAtLeftmost(tail, sep)
    requires !(sep <= [c] + Join(tail, sep))
    ensures CutAtLeftmost([[c] + tail[0]] + tail[1..], sep)
  {
    FirstPieceNoEarlyMatch(c, tail, sep);
    var r := [[c] + tail[0]] + tail[1..];
    assert forall k :: 1 <= k < |r| ==> r[k] == tail[k];
  }

  lemma FirstPieceNoEarlyMatch(c: char, tail: seq<string>, sep: string)
    requires |tail| > 0
    requires !(sep <= [c] + Join(tail, sep))
    requires NoEarlyMatch(tail[0], if |tail| > 1 then sep else "", sep)
    ensures NoEarlyMatch([c] + tail[0], if |tail| > 1 then sep else "", sep)
  {
    var first := [c] + tail[0];
    var after := if |tail| > 1 then sep else "";
    var s := [c] + Join(tail, sep);
    assert first + after <= s by {
      if |tail| > 1 {
        assert s == first + sep + Join(tail[1..], sep);
      }
    }
    forall i | 0 <= i < |first|
      ensures !(sep <= (first + after)[i..])
    {
      if i == 0 {
        assert (first + after)[i..] == first + after;
      } else {
        assert (first + after)[i..] == (tail[0] + after)[i - 1..];
      }
    }
  }

  /** A character put in front of the first part ends up in front of the joined string. */
  lemma JoinFront(c: char, pieces: seq<string>, sep: string)
    requires |pieces| > 0
    ensures Join([[c] + pieces[0]] + pieces[1..], sep) == [c] + Join(pieces, sep)
  {
  }

  /** `s.replace(target, replacement) == replacement.join(s.split(target))`. */
  lemma {:induction false} ReplaceIsJoinOfSplit(s: string, target: string, replacement: string)
    requires |target| > 0
    ensures Replace(s, target, replacement) == Join(SplitOn(s, target), replacement)
    decreases |s|
  {
    if |s| == 0 {
    } else if target <= s {
      ReplaceIsJoinOfSplit(s[|target|..], target, replacement);
    } else {
      ReplaceIsJoinOfSplit(s[1..], target, replacement);
      JoinFront(s[0], SplitOn(s[1..], target), replacement);
    }
  }

  /** With no occurrence of the target the text comes back unchanged. */
  lemma {:induction false} ReplaceWithoutOccurrence(s: string, target: string, replacement: string)
    requires |target| > 0
    requires !Occurs(s, target)
    ensures Replace(s, target, replacement) == s
    decreases |s|
  {
    if |s| > 0 {
      assert s[0..] == s;
      assert !Occurs(s[1..], target) by {
        forall i | 0 <= i <= |s[1..]|
          ensures !(target <= s[1..][i..])
        {
          assert s[1..][i..] == s[i + 1..];
        }
      }
      ReplaceWithoutOccurrence(s[1..], target, replacement);
    }
  }
}

=== FILE: text_editor.dfy ===
/**
 * The editor's plugin registry and the commands that use it: loading a
 * processor from a Python file, applying the one whose name was added to
 * the registry last, applying one picked from the "Manage Modules" list,
 * and find-and-replace.
 *
 * The registry is a Python dict from display name to processor instance; it
 * is modelled as a sequence of entries in insertion order with distinct
 * keys. The document is the text widget's content. Reading the widget with
 * `get(1.0, END)` yields that content followed by the widget's own final
 * newline (`WidgetText`), and that is what the processors and the
 * replacement see.
 */
module TextEditor {
  import opened Text
  import opened Plugin
  import WordReverser
  import SentenceReverser

  datatype Option<T> = None | Some(value: T)

  // ---------------------------------------------------------------------------
  // The registry: `self.loaded_modules`

  type Entry = (string, Processor)

  predicate UniqueKeys(entries: seq<Entry>) {
    forall i, j :: 0 <= i < j < |entries| ==> entries[i].0 != entries[j].0
  }

  /** A dict: entries in insertion order, no key twice. */
  type Registry = r: seq<Entry> | UniqueKeys(r) witness []

  /** `loaded_modules.keys()`, in iteration order. */
  function Keys(reg: seq<Entry>): (keys: seq<string>)
    ensures |keys| == |reg|
    ensures forall i :: 0 <= i < |reg| ==> keys[i] == reg[i].0
  {
    seq(|reg|, i requires 0 <= i < |reg| => reg[i].0)
  }

  /** Where `name` is stored, if anywhere. */
  function IndexOf(reg: seq<Entry>, name: string): (r: Option<nat>)
    ensures r.Some? ==> r.value < |reg| && reg[r.value].0 == name
    ensures r.None? <==> name !in Keys(reg)
  {
    if |reg| == 0 then None
    else if reg[0].0 == name then Some(0)
    else match IndexOf(reg[1..], name)
      case None => None
      case Some(i) => Some(i + 1)
  }

  /** `loaded_modules[name]`: the processor stored with `name`, or `None`
      where Python raises `KeyError`. */
  function Lookup(reg: Registry, name: string): (r: Option<Processor>)
    ensures r.None? <==> name !in Keys(reg)
    ensures forall i :: 0 <= i < |reg| && reg[i].0 == name ==> r == Some(reg[i].1)
  {
    match IndexOf(reg, name)
    case None => None
    case Some(i) => Some(reg[i].1)
  }

  /** `loaded_modules[name] = p`: a new key goes to the end, an existing key
      keeps its place and gets the new value. */
  function Assign(reg: Registry, name: string, p: Processor): (r: Registry)
    ensures Keys(r) == if name in Keys(reg) then Keys(reg) else Keys(reg) + [name]
    ensures |r| == if name in Keys(reg) then |reg| else |reg| + 1
    ensures Lookup(r, name) == Some(p)
    ensures forall other :: other != name ==> Lookup(r, other) == Lookup(reg, other)
    ensures forall k :: 0 <= k < |reg| && reg[k].0 != name ==> r[k] == reg[k]
  {
    match IndexOf(reg, name)
    case Some(i) =>
      AssignExisting(reg, i, p);
      reg[i := (name, p)]
    case None =>
      AssignNew(reg, name, p);
      reg + [(name, p)]
  }

  /** Storing under a key that sits at index `i` changes that entry only. */
  lemma AssignExisting(reg: Registry, i: nat, p: Processor)
    requires i < |reg|
    ensures UniqueKeys(reg[i := (reg[i].0, p)])
    ensures Keys(reg[i := (reg[i].0, p)]) == Keys(reg)
    ensures Lookup(reg[i := (reg[i].0, p)], reg[i].0) == Some(p)
    ensures forall other :: other != reg[i].0 ==> Lookup(reg[i := (reg[i].0, p)], other) == Lookup(reg, other)
  {
    var r: Registry := reg[i := (reg[i].0, p)];
    assert Keys(r) == Keys(reg);
    LookupAt(r, i);
    forall other | other != reg[i].0
      ensures Lookup(r, other) == Lookup(reg, other)
    {
      if other in Keys(reg) {
        var j := IndexOf(reg, other).value;
        LookupAt(reg, j);
        LookupAt(r, j);
      }
    }
  }

  /** Storing under a new key appends one entry. */
  lemma AssignNew(reg: Registry, name: string, p: Processor)
    requires name !in Keys(reg)
    ensures UniqueKeys(reg + [(name, p)])
    ensures Keys(reg + [(name, p)]) == Keys(reg) + [name]
    ensures Lookup(reg + [(name, p)], name) == Some(p)
    ensures forall other :: other != name ==> Lookup(reg + [(name, p)], other) == Lookup(reg, other)
  {
    var r: Registry := reg + [(name, p)];
    assert Keys(r) == Keys(reg) + [name];
    LookupAt(r, |reg|);
    forall other | other != name
      ensures Lookup(r, other) == Lookup(reg, other)
    {
      if other in Keys(reg) {
        var j := IndexOf(reg, other).value;
        LookupAt(reg, j);
        LookupAt(r, j);
      }
    }
  }

  /** With distinct keys, the entry at index `i` is what its key looks up. */
  lemma LookupAt(reg: Registry, i: nat)
    requires i < |reg|
    ensures Lookup(reg, reg[i].0) == Some(reg[i].1)
  {
  }

  // ---------------------------------------------------------------------------
  // load_module

  /** The message of the `AttributeError` raised when no class qualifies. */
  const NoProcessorMessage := "Module does not contain a valid processor class"

  datatype LoadOutcome =
    | Cancelled               // the file dialog returned no path
    | Loaded(name: string)    // "Module '<name>' loaded successfully!"
    | LoadFailed(reason: string)  // "Failed to load module: <reason>"

  /** The index of the first definition, in namespace order, that is a class
      with `process`, `get_name` and `get_description`. */
  function FirstConforming(defs: seq<Definition>): (r: Option<nat>)
    ensures r.Some? ==> r.value < |defs| && Conforms(defs[r.value])
    ensures r.Some? ==> forall j :: 0 <= j < r.value ==> !Conforms(defs[j])
    ensures r.None? <==> forall j :: 0 <= j < |defs| ==> !Conforms(defs[j])
  {
    if |defs| == 0 then None
    else if Conforms(defs[0]) then Some(0)
    else match FirstConforming(defs[1..])
      case None => None
      case Some(i) => Some(i + 1)
  }

  /** `load_module`, given the file the user picked (`None` when the dialog
      was cancelled). Every `Exception` raised while executing the file,
      constructing the class or calling `get_name` is caught and reported;
      only a successful load touches the registry. A success stores the
      instance of the first qualifying class under the name it reports. */
  function LoadModule(reg: Registry, chosen: Option<SourceFile>): (r: (Registry, LoadOutcome))
    ensures r.1 == Cancelled <==> chosen.None?
    ensures !r.1.Loaded? ==> r.0 == reg
    ensures r.1.Loaded? ==> Lookup(r.0, r.1.name).Some?
    ensures r.1.Loaded? ==> Keys(r.0) == if r.1.name in Keys(reg) then Keys(reg) else Keys(reg) + [r.1.name]
    ensures r.1.Loaded? ==>
      && chosen.Some? && chosen.value.execution.Ok?
      && FirstConforming(chosen.value.execution.value).Some?
      && var defs := chosen.value.execution.value;
         var inst := defs[FirstConforming(defs).value].instantiate;
         && inst.Ok? && inst.value.getName == Ok(r.1.name)
         && r.0 == Assign(reg, r.1.name, inst.value)
    ensures chosen.Some? && chosen.value.execution.Raised? ==>
      r == (reg, LoadFailed(chosen.value.execution.error))
    ensures chosen.Some? && chosen.value.execution.Ok? ==>
      var defs := chosen.value.execution.value;
      && (FirstConforming(defs).None? ==> r == (reg, LoadFailed(NoProcessorMessage)))
      && (FirstConforming(defs).Some? ==>
            var inst := defs[FirstConforming(defs).value].instantiate;
            && (inst.Raised? ==> r == (reg, LoadFailed(inst.error)))
            && (inst.Ok? && inst.value.getName.Raised? ==> r == (reg, LoadFailed(inst.value.getName.error)))
            && (inst.Ok? && inst.value.getName.Ok? ==>
                  r == (Assign(reg, inst.value.getName.value, inst.value), Loaded(inst.value.getName.value))))
  {
    match chosen
    case None => (reg, Cancelled)
    case Some(file) =>
      match file.execution
      case Raised(e) => (reg, LoadFailed(e))
      case Ok(defs) =>
        match FirstConforming(defs)
        case None => (reg, LoadFailed(NoProcessorMessage))
        case Some(i) =>
          match defs[i].instantiate
          case Raised(e) => (reg, LoadFailed(e))
          case Ok(p) =>
            match p.getName
            case Raised(e) => (reg, LoadFailed(e))
            case Ok(name) => (Assign(reg, name, p), Loaded(name))
  }

  /** The first qualifying class is instantiated and registered under the
      name its `get_name` returns. */
  lemma LoadRegistersFirstConforming(reg: Registry, defs: seq<Definition>, i: nat, p: Processor, name: string)
    requires i < |defs| && Conforms(defs[i])
    requires forall j :: 0 <= j < i ==> !Conforms(defs[j])
    requires defs[i].instantiate == Ok(p) && p.getName == Ok(name)
    ensures LoadModule(reg, Some(SourceFile(Ok(defs)))) == (Assign(reg, name, p), Loaded(name))
  {
    FirstConformingAt(defs, i);
  }

  /** The index with a qualifying class and none before it is the one found. */
  lemma FirstConformingAt(defs: seq<Definition>, i: nat)
    requires i < |defs| && Conforms(defs[i])
    requires forall j :: 0 <= j < i ==> !Conforms(defs[j])
    ensures FirstConforming(defs) == Some(i)
  {
  }

  /** A file without a qualifying class fails with the `AttributeError` message. */
  lemma LoadWithoutProcessor(reg: Registry, defs: seq<Definition>)
    requires forall j :: 0 <= j < |defs| ==> !Conforms(defs[j])
    ensures LoadModule(reg, Some(SourceFile(Ok(defs)))) == (reg, LoadFailed(NoProcessorMessage))
  {
  }

  /** A file whose execution raises fails with that error. */
  lemma LoadExecutionRaises(reg: Registry, e: string)
    ensures LoadModule(reg, Some(SourceFile(Raised(e)))) == (reg, LoadFailed(e))
  {
  }

  /** When `get_name` of the first qualifying class's instance raises, the
      load fails with that error and nothing is registered. */
  lemma LoadNameRaises(reg: Registry, defs: seq<Definition>, i: nat, p: Processor, e: string)
    requires i < |defs| && Conforms(defs[i])
    requires forall j :: 0 <= j < i ==> !Conforms(defs[j])
    requires defs[i].instantiate == Ok(p) && p.getName == Raised(e)
    ensures LoadModule(reg, Some(SourceFile(Ok(defs)))) == (reg, LoadFailed(e))
  {
    FirstConformingAt(defs, i);
  }

  /** Only the first qualifying class is tried: when its constructor raises,
      the load fails even if a later class would have worked. */
  lemma LoadDoesNotFallBack(reg: Registry, defs: seq<Definition>, i: nat, e: string)
    requires i < |defs| && Conforms(defs[i])
    requires forall j :: 0 <= j < i ==> !Conforms(defs[j])
    requires defs[i].instantiate == Raised(e)
    ensures LoadModule(reg, Some(SourceFile(Ok(defs)))) == (reg, LoadFailed(e))
  {
    FirstConformingAt(defs, i);
  }

  /** Loading never removes or reorders names: the old key list is a prefix
      of the new one. */
  lemma LoadKeepsKeys(reg: Registry, chosen: Option<SourceFile>)
    ensures Keys(reg) <= Keys(LoadModule(reg, chosen).0)
  {
  }

  /** Re-loading a name that is already registered replaces the processor
      but keeps the name's place, so the most recently loaded module is not
      necessarily the last key. */
  lemma ReloadKeepsPlace(reg: Registry, chosen: Option<SourceFile>)
    requires LoadModule(reg, chosen).1.Loaded?
    requires LoadModule(reg, chosen).1.name in Keys(reg)
    ensures Keys(LoadModule(reg, chosen).0) == Keys(reg)
  {
  }

  /** Re-loading a registered name leaves the last key as it was: the
      name loaded most recently is applied by `apply_last_module` only if it
      was already last. */
  lemma ReloadIsNotMostRecent(reg: Registry, name: string, p: Processor)
    requires name in Keys(reg)
    ensures |Assign(reg, name, p)| == |reg| > 0
    ensures Keys(Assign(reg, name, p))[|reg| - 1] == Keys(reg)[|reg| - 1]
  {
  }

  /** Two loads under one name leave one entry, holding the second processor. */
  lemma LoadTwice(reg: Registry, name: string, p: Processor, q: Processor)
    ensures Lookup(Assign(Assign(reg, name, p), name, q), name) == Some(q)
    ensures |Assign(Assign(reg, name, p), name, q)| == |Assign(reg, name, p)|
  {
    assert name in Keys(Assign(reg, name, p));
  }

  // ---------------------------------------------------------------------------
  // The editor

  datatype Editor = Editor(registry: Registry, content: string)

  /** What `text_area.get(1.0, tk.END)` returns: the content and the widget's
      final newline. */
  function WidgetText(content: string): string {
    content + "\n"
  }

  datatype ApplyOutcome =
    | NoModules                            // "No modules have been loaded. ..."
    | NoSelection                          // the list had no selection
    | Applied(name: string)                // the buffer now holds the result
    | ProcessRaised(name: string, error: string)  // `process` raised; buffer untouched
    | UnknownModule(name: string)          // `KeyError` on the registry lookup

  /** Runs `p.process` on the widget text and writes the result back. */
  function RunProcessor(ed: Editor, name: string, p: Processor): (r: (Editor, ApplyOutcome))
    ensures r.0.registry == ed.registry
    ensures r.1 == Applied(name) || r.1.ProcessRaised?
    ensures r.1 == Applied(name) <==> p.process(WidgetText(ed.content)).Ok?
    ensures r.1 == Applied(name) ==> r.0.content == p.process(WidgetText(ed.content)).value
    ensures r.1.ProcessRaised? ==> r.0 == ed && r.1.name == name
  {
    match p.process(WidgetText(ed.content))
    case Raised(e) => (ed, ProcessRaised(name, e))
    case Ok(out) => (ed.(content := out), Applied(name))
  }

  /** `apply_last_module`: the processor under the last key is applied. */
  function ApplyLastModule(ed: Editor): (r: (Editor, ApplyOutcome))
    ensures r.0.registry == ed.registry
    ensures r.1 == NoModules <==> Keys(ed.registry) == []
    ensures !r.1.Applied? ==> r.0 == ed
    ensures r.1.Applied? ==> r.1.name == Keys(ed.registry)[|ed.registry| - 1]
    ensures r.1.Applied? ==>
      && Lookup(ed.registry, r.1.name).Some?
      && Lookup(ed.registry, r.1.name).value.process(WidgetText(ed.content)) == Ok(r.0.content)
    ensures |ed.registry| > 0 ==>
      var last := ed.registry[|ed.registry| - 1];
      match last.1.process(WidgetText(ed.content))
      case Ok(out) => r == (ed.(content := out), Applied(last.0))
      case Raised(e) => r == (ed, ProcessRaised(last.0, e))
  {
    if |ed.registry| == 0 then (ed, NoModules)
    else
      var last := ed.registry[|ed.registry| - 1];
      LookupAt(ed.registry, |ed.registry| - 1);
      RunProcessor(ed, last.0, last.1)
  }

  /** The names "Manage Modules" lists, in order. */
  function ListedModules(ed: Editor): (names: seq<string>)
    ensures |names| == |ed.registry|
    ensures forall i :: 0 <= i < |names| ==> names[i] == ed.registry[i].0
    ensures forall name :: name in names <==> Lookup(ed.registry, name).Some?
  {
    Keys(ed.registry)
  }

  /** `apply_module` inside `manage_modules`: `listed` is what the list box
      was filled with when the window opened, `selection` its first selected
      index. */
  function ApplySelected(ed: Editor, listed: seq<string>, selection: Option<nat>): (r: (Editor, ApplyOutcome))
    requires selection.Some? ==> selection.value < |listed|
    ensures r.0.registry == ed.registry
    ensures !r.1.Applied? ==> r.0 == ed
    ensures r.1 == NoSelection <==> selection.None?
    ensures r.1.UnknownModule? ==> listed[selection.value] !in Keys(ed.registry)
    ensures selection.Some? && listed[selection.value] !in Keys(ed.registry) ==>
      r == (ed, UnknownModule(listed[selection.value]))
    ensures selection.Some? && listed[selection.value] in Keys(ed.registry) ==>
      var name := listed[selection.value];
      match Lookup(ed.registry, name).value.process(WidgetText(ed.content))
      case Ok(out) => r == (ed.(content := out), Applied(name))
      case Raised(e) => r == (ed, ProcessRaised(name, e))
    ensures r.1.Applied? ==>
      && selection.Some? && r.1.name == listed[selection.value]
      && Lookup(ed.registry, r.1.name).Some?
      && Lookup(ed.registry, r.1.name).value.process(WidgetText(ed.content)) == Ok(r.0.content)
  {
    match selection
    case None => (ed, NoSelection)
    case Some(k) =>
      var name := listed[k];
      match Lookup(ed.registry, name)
      case None => (ed, UnknownModule(name))
      case Some(p) => RunProcessor(ed, name, p)
  }

  /** Modules loaded while the "Manage Modules" window is open never make a
      listed name unknown: every listed name still resolves. */
  lemma ListedNamesResolve(ed: Editor, chosen: Option<SourceFile>, k: nat)
    requires k < |ListedModules(ed)|
    ensures var ed' := ed.(registry := LoadModule(ed.registry, chosen).0);
      !ApplySelected(ed', ListedModules(ed), Some(k)).1.UnknownModule?
  {
    LoadKeepsKeys(ed.registry, chosen);
    var keys' := Keys(LoadModule(ed.registry, chosen).0);
    assert ListedModules(ed)[k] == keys'[k];
  }

  // ---------------------------------------------------------------------------
  // replace_text

  /** `replace_text` as written: both answers must be non-empty, and the
      replacement runs on the widget text, final newline included, which is
      then inserted as the new content. */
  function ReplaceText(ed: Editor, find: Option<string>, replacement: Option<string>): (r: Editor)
    ensures r.registry == ed.registry
    ensures (find.None? || find.value == "" || replacement.None? || replacement.value == "") ==> r == ed
    ensures find.Some? && find.value != "" && replacement.Some? && replacement.value != "" ==>
      r.content == Join(SplitOn(WidgetText(ed.content), find.value), replacement.value)
  {
    if find.Some? && find.value != "" && replacement.Some? && replacement.value != "" then
      ReplaceIsJoinOfSplit(WidgetText(ed.content), find.value, replacement.value);
      ed.(content := Replace(WidgetText(ed.content), find.value, replacement.value))
    else
      ed
  }

  /** `replace_text` as evidently intended: the replacement runs on the
      document itself. */
  function ReplaceTextIntended(ed: Editor, find: Option<string>, replacement: Option<string>): (r: Editor)
    ensures r.registry == ed.registry
    ensures (find.None? || find.value == "" || replacement.None? || replacement.value == "") ==> r == ed
    ensures find.Some? && find.value != "" && replacement.Some? && replacement.value != "" ==>
      r.content == Join(SplitOn(ed.content, find.value), replacement.value)
  {
    if find.Some? && find.value != "" && replacement.Some? && replacement.value != "" then
      ReplaceIsJoinOfSplit(ed.content, find.value, replacement.value);
      ed.(content := Replace(ed.content, find.value, replacement.value))
    else
      ed
  }

  /** The intended replace is `str.replace`: the document cut at the leftmost
      occurrences of the target and glued back with the replacement, and a
      document without the target is left alone. */
  lemma ReplaceTextIntendedMeaning(ed: Editor, find: string, replacement: string)
    requires find != "" && replacement != ""
    ensures ReplaceTextIntended(ed, Some(find), Some(replacement)).content
      == Join(SplitOn(ed.content, find), replacement)
    ensures !Occurs(ed.content, find) ==> ReplaceTextIntended(ed, Some(find), Some(replacement)) == ed
  {
    ReplaceIsJoinOfSplit(ed.content, find, replacement);
    if !Occurs(ed.content, find) {
      ReplaceWithoutOccurrence(ed.content, find, replacement);
    }
  }

  /** A target without a newline never matches across the end of the text. */
  lemma {:induction false} ReplaceAppendNewline(s: string, target: string, replacement: string)
    requires |target| > 0 && '\n' !in target
    ensures Replace(s + "\n", target, replacement) == Replace(s, target, replacement) + "\n"
    decreases |s|
  {
    if |s| == 0 {
      assert target[0] in target;
      assert "" + "\n" == "\n";
    } else {
      var t := s + "\n";
      assert t[1..] == s[1..] + "\n";
      assert |target| > |s| ==> target[|s|] in target;
      assert (target <= t) == (target <= s);
      if target <= s {
        assert t[|target|..] == s[|target|..] + "\n";
        ReplaceAppendNewline(s[|target|..], target, replacement);
      } else {
        ReplaceAppendNewline(s[1..], target, replacement);
      }
    }
  }

  /** As written, every replace whose target has no newline leaves the
      intended result plus one extra newline at the end. */
  lemma ReplaceTextAddsNewline(ed: Editor, find: string, replacement: string)
    requires find != "" && replacement != "" && '\n' !in find
    ensures ReplaceText(ed, Some(find), Some(replacement)).content
      == ReplaceTextIntended(ed, Some(find), Some(replacement)).content + "\n"
  {
    ReplaceAppendNewline(ed.content, find, replacement);
  }

  /** The smallest case: replacing an absent target in "a" yields "a\n". */
  lemma ReplaceTextCounterexample(reg: Registry)
    ensures ReplaceText(Editor(reg, "a"), Some("x"), Some("y")).content == "a\n"
    ensures ReplaceTextIntended(Editor(reg, "a"), Some("x"), Some("y")).content == "a"
  {
    ReplaceTextAddsNewline(Editor(reg, "a"), "x", "y");
    assert !Occurs("a", "x") by {
      forall i | 0 <= i <= 1
        ensures !("x" <= "a"[i..])
      {
      }
    }
    ReplaceTextIntendedMeaning(Editor(reg, "a"), "x", "y");
  }

  // ---------------------------------------------------------------------------
  // The built-in processors through the editor

  /** Loading word_reverser.py under a new name and applying the last module
      reverses the words of the document; the widget's newline is whitespace
      and disappears in the split. */
  lemma LoadAndApplyWordReverser(ed: Editor)
    requires WordReverser.Name !in Keys(ed.registry)
    ensures var loaded := LoadModule(ed.registry, Some(WordReverser.Source));
      && loaded.1 == Loaded("Word Reverser")
      && var r := ApplyLastModule(ed.(registry := loaded.0));
      r.1 == Applied("Word Reverser") && r.0.content == WordReverser.ReverseWords(ed.content)
  {
    var defs := WordReverser.Source.execution.value;
    LoadRegistersFirstConforming(ed.registry, defs, 9, WordReverser.Instance, WordReverser.Name);
    WordReverser.ReverseWordsIgnoresTrailingWhitespace(ed.content, "\n");
  }

  /** Loading sentence_reverser.py under a new name and applying the last
      module reverses the sentences of the widget text, newline included. */
  lemma LoadAndApplySentenceReverser(ed: Editor)
    requires SentenceReverser.Name !in Keys(ed.registry)
    ensures var loaded := LoadModule(ed.registry, Some(SentenceReverser.Source));
      && loaded.1 == Loaded("Sentence Reverser")
      && var r := ApplyLastModule(ed.(registry := loaded.0));
      r.1 == Applied("Sentence Reverser")
      && r.0.content == SentenceReverser.ReverseSentences(WidgetText(ed.content))
  {
    var defs := SentenceReverser.Source.execution.value;
    LoadRegistersFirstConforming(ed.registry, defs, 10, SentenceReverser.Instance, SentenceReverser.Name);
  }

  /** The widget's newline follows the final terminator, so it is a boundary
      of its own: the empty last piece moves to the front as a space. */
  lemma SentenceReverserNewlineExample()
    ensures SentenceReverser.ReverseSentences(WidgetText("A. B.")) == " B. A."
  {
    SentenceNewlineSplit();
    SentenceReverser.ReverseSentencesOfSplit(["A.", "B.", ""], [" ", "\n"]);
    SentenceNewlineJoined();
  }

  lemma SentenceNewlineJoined()
    ensures Interleave(["A.", "B.", ""], [" ", "\n"]) == WidgetText("A. B.")
    ensures Join(Reverse(["A.", "B.", ""]), " ") == " B. A."
  {
    assert Reverse(["A.", "B.", ""]) == ["", "B.", "A."];
  }

  lemma SentenceNewlineSplit()
    ensures SentenceReverser.SentenceSplit(["A.", "B.", ""], [" ", "\n"], false)
  {
    var ps := ["A.", "B.", ""];
    assert SentenceReverser.BoundaryFree(ps[0], true);
    assert SentenceReverser.BoundaryFree(ps[1], false);
    assert AllWhitespace("\n");
  }
}

=== FILE: word_reverser.dfy ===
/**
 * The word reverser plugin: `text.split()`, each token reversed, the tokens
 * joined with single spaces.
 */
module WordReverser {
  import opened Text
  import opened Plugin

  /** Length of the longest whitespace-free prefix of `s`. */
  function WordSpan(s: string): (n: nat)
    ensures n <= |s|
    ensures forall i :: 0 <= i < n ==> !IsWhitespace(s[i])
    ensures n < |s| ==> IsWhitespace(s[n])
  {
    if |s| == 0 || IsWhitespace(s[0]) then 0 else 1 + WordSpan(s[1..])
  }

  /** The word prefix of `a + b` is exactly `a` when `a` has no whitespace
      and `b` is empty or starts with whitespace; the counterpart of
      `WhitespaceSpanExact`. */
  lemma WordSpanExact(a: string, b: string)
    requires forall i :: 0 <= i < |a| ==> !IsWhitespace(a[i])
    requires |b| == 0 || IsWhitespace(b[0])
    ensures WordSpan(a + b) == |a|
    ensures (a + b)[..|a|] == a && (a + b)[|a|..] == b
  {
    assert forall i :: 0 <= i < |a| ==> (a + b)[i] == a[i];
    assert |b| > 0 ==> (a + b)[|a|] == b[0];
  }

  /** A token of `str.split()`: a non-empty run without whitespace. */
  predicate IsWord(w: string) {
    |w| > 0 && forall i :: 0 <= i < |w| ==> !IsWhitespace(w[i])
  }

  predicate AllWords(words: seq<string>) {
    forall k :: 0 <= k < |words| ==> IsWord(words[k])
  }

  /** `Interleave(gaps, words)` cuts a string into whitespace gaps and words
      the way `str.split()` does: every gap is whitespace, the gaps between two
      words are non-empty, the gaps at either end may be empty. */
  predicate Tokenization(gaps: seq<string>, words: seq<string>) {
    && |gaps| == |words| + 1
    && (forall k :: 0 <= k < |gaps| ==> AllWhitespace(gaps[k]))
    && (forall k :: 0 < k < |words| ==> |gaps[k]| > 0)
    && AllWords(words)
  }

  /** Scans `s` into its gaps and words; the words are `s.split()`. */
  function Tokenize(s: string): (r: (seq<string>, seq<string>))
    ensures |r.0| == |r.1| + 1
    decreases |s|
  {
    var g := WhitespaceSpan(s);
    if g == |s| then
      ([s], [])
    else
      var rest := s[g..];
      var n := WordSpan(rest);
      var tail := Tokenize(rest[n..]);
      ([s[..g]] + tail.0, [rest[..n]] + tail.1)
  }

  /** The first gap is the text's leading whitespace. */
  lemma FirstGap(s: string)
    ensures Tokenize(s).0[0] == s[..WhitespaceSpan(s)]
  {
  }

  /** A cut extended at the front by one gap and one word is still a cut. */
  lemma TokenizationCons(g: string, w: string, gaps: seq<string>, words: seq<string>)
    requires Tokenization(gaps, words)
    requires AllWhitespace(g) && IsWord(w)
    requires |words| > 0 ==> |gaps[0]| > 0
    ensures Tokenization([g] + gaps, [w] + words)
  {
    var gaps', words' := [g] + gaps, [w] + words;
    assert forall k :: 1 <= k < |gaps'| ==> gaps'[k] == gaps[k - 1];
    assert forall k :: 1 <= k < |words'| ==> words'[k] == words[k - 1];
  }

  /** Dropping the first gap and word of a cut leaves a cut. */
  lemma TokenizationTail(gaps: seq<string>, words: seq<string>)
    requires Tokenization(gaps, words) && |words| > 0
    ensures Tokenization(gaps[1..], words[1..])
  {
    assert forall k :: 0 <= k < |words| - 1 ==> words[1..][k] == words[k + 1];
    assert forall k :: 0 <= k < |gaps| - 1 ==> gaps[1..][k] == gaps[k + 1];
  }

  /** The scan is a `str.split()` cut: whitespace gaps, non-empty gaps
      between words, words free of whitespace. */
  lemma {:induction false} TokenizeSound(s: string)
    ensures Tokenization(Tokenize(s).0, Tokenize(s).1)
    decreases |s|
  {
    var g := WhitespaceSpan(s);
    if g < |s| {
      var rest := s[g..];
      var n := WordSpan(rest);
      var tail := Tokenize(rest[n..]);
      TokenizeSound(rest[n..]);
      assert Tokenize(s) == ([s[..g]] + tail.0, [rest[..n]] + tail.1);
      assert |tail.1| > 0 ==> |tail.0[0]| > 0 by {
        if |tail.1| > 0 {
          assert rest[n..][0] == rest[n];
          FirstGap(rest[n..]);
        }
      }
      assert rest[0] == s[g];
      assert IsWord(rest[..n]);
      TokenizationCons(s[..g], rest[..n], tail.0, tail.1);
    } else {
      assert Tokenize(s) == ([s], []);
    }
  }

  /** What is left to scan after the first gap and the first word. */
  function Remainder(s: string): (r: string)
    requires WhitespaceSpan(s) < |s|
    ensures |r| < |s|
  {
    var rest := s[WhitespaceSpan(s)..];
    rest[WordSpan(rest)..]
  }

  /** The scan loses nothing: gaps and words put back together give the text. */
  lemma {:induction false} TokenizeLossless(s: string)
    ensures Interleave(Tokenize(s).0, Tokenize(s).1) == s
    decreases |s|
  {
    if WhitespaceSpan(s) < |s| {
      TokenizeLossless(Remainder(s));
      LosslessStep(s);
    } else {
      assert Tokenize(s) == ([s], []);
    }
  }

  lemma LosslessStep(s: string)
    requires WhitespaceSpan(s) < |s|
    requires Interleave(Tokenize(Remainder(s)).0, Tokenize(Remainder(s)).1) == Remainder(s)
    ensures Interleave(Tokenize(s).0, Tokenize(s).1) == s
  {
    var g := WhitespaceSpan(s);
    var rest := s[g..];
    var n := WordSpan(rest);
    var gap, word, rem := s[..g], rest[..n], rest[n..];
    CutThree(s, g, n);
    var tail := Tokenize(rem);
    LosslessCons(s, gap, word, rem, tail.0, tail.1);
  }

  lemma CutThree(s: string, g: nat, n: nat)
    requires g <= |s| && n <= |s| - g
    ensures s == s[..g] + s[g..][..n] + s[g..][n..]
  {
    assert s[g..] == s[g..][..n] + s[g..][n..];
  }

  lemma LosslessCons(s: string, gap: string, word: string, rem: string, gs: seq<string>, ws: seq<string>)
    requires |gs| == |ws| + 1
    requires Tokenize(s) == ([gap] + gs, [word] + ws)
    requires Interleave(gs, ws) == rem
    requires s == gap + word + rem
    ensures Interleave(Tokenize(s).0, Tokenize(s).1) == s
  {
    InterleaveCons(gap, word, gs, ws);
  }

  /** Python's `text.split()` with no argument. */
  function Split(text: string): seq<string> {
    Tokenize(text).1
  }

  /** `[word[::-1] for word in words]` */
  function ReverseEach(words: seq<string>): (r: seq<string>)
    ensures |r| == |words|
  {
    seq(|words|, i requires 0 <= i < |words| => Reverse(words[i]))
  }

  /** `reverse_words(text)` of word_reverser.py. */
  function ReverseWords(text: string): string {
    Join(ReverseEach(Split(text)), " ")
  }

  /** A string in the form `' '.join` produces from tokens: no whitespace at
      either end and each whitespace character a lone `' '` between two
      non-whitespace characters. */
  predicate Normalised(t: string) {
    && (|t| > 0 ==> !IsWhitespace(t[0]) && !IsWhitespace(t[|t| - 1]))
    && (forall i :: 0 <= i < |t| && IsWhitespace(t[i]) ==> t[i] == ' ')
    // two bound indices instead of `t[i + 1]`, so that the trigger `t[i]`
    // does not produce a new `t[i + 1]` term and loop
    && (forall i, j :: 0 <= i < |t| && 0 <= j < |t| && j == i + 1 ==> !IsWhitespace(t[i]) || !IsWhitespace(t[j]))
  }

  // ---------------------------------------------------------------------------
  // str.split() is the unique whitespace/word cut

  /** Any cut of `s` into whitespace gaps and words is the one `Tokenize`
      finds, so `Split` returns exactly the words of every such cut. */
  lemma {:induction false} TokenizeUnique(gaps: seq<string>, words: seq<string>)
    requires Tokenization(gaps, words)
    ensures Tokenize(Interleave(gaps, words)) == (gaps, words)
    decreases |words|
  {
    if |words| == 0 {
      var s := Interleave(gaps, words);
      assert s == gaps[0] + "";
      WhitespaceSpanExact(gaps[0], "");
      assert gaps == [s];
    } else {
      TokenizationTail(gaps, words);
      TokenizeUnique(gaps[1..], words[1..]);
      TokenizeUniqueStep(gaps, words);
    }
  }

  /** The first gap and word of a cut are what the scan's first step finds. */
  lemma FirstCut(gaps: seq<string>, words: seq<string>)
    requires Tokenization(gaps, words) && |words| > 0
    ensures var s := Interleave(gaps, words);
      var g, n := |gaps[0]|, |words[0]|;
      && WhitespaceSpan(s) == g && g < |s|
      && s[..g] == gaps[0]
      && WordSpan(s[g..]) == n
      && s[g..][..n] == words[0]
      && s[g..][n..] == Interleave(gaps[1..], words[1..])
  {
    var tailS := Interleave(gaps[1..], words[1..]);
    var rest := words[0] + tailS;
    assert Interleave(gaps, words) == gaps[0] + rest;
    assert rest[0] == words[0][0];
    WhitespaceSpanExact(gaps[0], rest);
    NextGapStartsWithWhitespace(gaps, words);
    WordSpanExact(words[0], tailS);
  }

  /** The scan of a cut is the cut, given that it is for the rest of the text. */
  lemma TokenizeUniqueStep(gaps: seq<string>, words: seq<string>)
    requires Tokenization(gaps, words) && |words| > 0
    requires Tokenize(Interleave(gaps[1..], words[1..])) == (gaps[1..], words[1..])
    ensures Tokenize(Interleave(gaps, words)) == (gaps, words)
  {
    TokenizeHead(gaps, words);
    HeadTail(gaps);
    HeadTail(words);
  }

  /** The scan of a cut starts with the cut's first gap and word. */
  lemma TokenizeHead(gaps: seq<string>, words: seq<string>)
    requires Tokenization(gaps, words) && |words| > 0
    ensures var tail := Tokenize(Interleave(gaps[1..], words[1..]));
      Tokenize(Interleave(gaps, words)) == ([gaps[0]] + tail.0, [words[0]] + tail.1)
  {
    FirstCut(gaps, words);
    TokenizeCons(Interleave(gaps, words), gaps[0], words[0], Interleave(gaps[1..], words[1..]));
  }

  /** The scan's first step, once its gap, word and remainder are known. */
  lemma TokenizeCons(s: string, g: string, w: string, tailS: string)
    requires WhitespaceSpan(s) == |g| < |s| && s[..|g|] == g
    requires WordSpan(s[|g|..]) == |w| && s[|g|..][..|w|] == w && s[|g|..][|w|..] == tailS
    ensures Tokenize(s) == ([g] + Tokenize(tailS).0, [w] + Tokenize(tailS).1)
  {
  }

  /** After the first word of a cut comes whitespace or the end of the text. */
  lemma NextGapStartsWithWhitespace(gaps: seq<string>, words: seq<string>)
    requires Tokenization(gaps, words) && |words| > 0
    ensures var tailS := Interleave(gaps[1..], words[1..]);
      |tailS| == 0 || IsWhitespace(tailS[0])
  {
    var tailS := Interleave(gaps[1..], words[1..]);
    if |words| > 1 {
      assert tailS == gaps[1] + (words[1] + Interleave(gaps[2..], words[2..]));
      assert gaps[1][0] == tailS[0];
    } else {
      assert tailS == gaps[1];
      assert AllWhitespace(gaps[1]);
    }
  }

  /** One step of the scan when the text holds a word. */
  lemma TokenizeStep(s: string)
    requires WhitespaceSpan(s) < |s|
    ensures var g := WhitespaceSpan(s);
      var rest := s[g..];
      var n := WordSpan(rest);
      Tokenize(s) == ([s[..g]] + Tokenize(rest[n..]).0, [rest[..n]] + Tokenize(rest[n..]).1)
  {
  }

  /** Splitting a single-space join gives back the words. */
  lemma SplitJoin(words: seq<string>)
    requires AllWords(words)
    ensures Split(Join(words, " ")) == words
  {
    JoinAsInterleave(words, " ");
    var gaps := JoinGaps(|words|, " ");
    assert Tokenization(gaps, words) by {
      forall k | 0 <= k < |gaps|
        ensures AllWhitespace(gaps[k])
      {
        assert gaps[k] == "" || gaps[k] == " ";
      }
    }
    TokenizeUnique(gaps, words);
  }

  /** Whitespace added to the last gap keeps a tokenization one. */
  lemma TokenizationExtendLast(gaps: seq<string>, words: seq<string>, g: string)
    requires Tokenization(gaps, words) && AllWhitespace(g)
    ensures Tokenization(gaps[..|words|] + [gaps[|words|] + g], words)
  {
    var n := |words|;
    var gaps' := gaps[..n] + [gaps[n] + g];
    forall k | 0 <= k < |gaps'|
      ensures AllWhitespace(gaps'[k])
    {
      if k < n {
        assert gaps'[k] == gaps[k];
      } else {
        assert gaps'[k] == gaps[n] + g;
        assert AllWhitespace(gaps[n]);
      }
    }
    assert forall k :: 0 < k < n ==> gaps'[k] == gaps[k];
  }

  /** Whitespace added at the end of the text does not change its words. */
  lemma SplitIgnoresTrailingWhitespace(s: string, g: string)
    requires AllWhitespace(g)
    ensures Split(s + g) == Split(s)
  {
    var (gaps, words) := Tokenize(s);
    TokenizeSound(s);
    TokenizeLossless(s);
    InterleaveAppend(gaps, words, g);
    TokenizationExtendLast(gaps, words, g);
    TokenizeUnique(gaps[..|words|] + [gaps[|words|] + g], words);
  }

  /** Leading whitespace does not change the words. */
  lemma SplitSkipsLeadingWhitespace(s: string)
    ensures Split(s) == Split(s[WhitespaceSpan(s)..])
  {
    var g := WhitespaceSpan(s);
    var u := s[g..];
    if g < |s| {
      assert u[0] == s[g];
      assert WhitespaceSpan(u) == 0;
      assert u[0..] == u;
    }
  }

  /** No whitespace anywhere means no words; otherwise at least one. */
  lemma SplitEmptyIff(s: string)
    ensures Split(s) == [] <==> AllWhitespace(s)
  {
    var g := WhitespaceSpan(s);
    if AllWhitespace(s) {
      WhitespaceSpanExact(s, "");
      assert s + "" == s;
    }
  }

  // ---------------------------------------------------------------------------
  // Facts about single-space joins

  lemma SumLengthsReverseEach(words: seq<string>)
    ensures SumLengths(ReverseEach(words)) == SumLengths(words)
    decreases |words|
  {
    if |words| > 0 {
      assert ReverseEach(words)[1..] == ReverseEach(words[1..]);
      SumLengthsReverseEach(words[1..]);
    }
  }

  lemma ReverseEachWords(words: seq<string>)
    requires AllWords(words)
    ensures AllWords(ReverseEach(words))
  {
    forall k | 0 <= k < |words|
      ensures IsWord(ReverseEach(words)[k])
    {
      var w := words[k];
      assert forall i :: 0 <= i < |w| ==> Reverse(w)[i] == w[|w| - 1 - i];
    }
  }

  lemma ReverseEachTwice(words: seq<string>)
    ensures ReverseEach(ReverseEach(words)) == words
  {
    forall k | 0 <= k < |words|
      ensures ReverseEach(ReverseEach(words))[k] == words[k]
    {
      ReverseInvolution(words[k]);
    }
  }

  lemma JoinStartsWithFirst(parts: seq<string>, sep: string)
    requires |parts| > 0
    ensures parts[0] <= Join(parts, sep)
  {
  }

  /** Two normalised non-empty strings glued by one space stay normalised
      when the glue lands between two non-whitespace characters. */
  lemma NormalisedGlue(a: string, b: string)
    requires Normalised(a) && Normalised(b)
    requires |a| > 0 && |b| > 0
    ensures Normalised(a + " " + b)
  {
    var t := a + " " + b;
    assert forall i :: 0 <= i < |a| ==> t[i] == a[i];
    assert forall j :: 0 <= j < |b| ==> t[|a| + 1 + j] == b[j];
    assert t[|a|] == ' ';
    forall i, j | 0 <= i && j == i + 1 && j < |t|
      ensures !IsWhitespace(t[i]) || !IsWhitespace(t[j])
    {
      if j < |a| {
        assert t[i] == a[i] && t[j] == a[j];
      } else if j > |a| + 1 {
        assert t[i] == b[i - |a| - 1] && t[j] == b[j - |a| - 1];
      }
    }
  }

  /** `' '.join(words)` is normalised. */
  lemma {:induction false} JoinNormalised(words: seq<string>)
    requires AllWords(words)
    ensures Normalised(Join(words, " "))
    decreases |words|
  {
    if |words| == 1 {
      assert Join(words, " ") == words[0];
    } else if |words| > 1 {
      var rest := Join(words[1..], " ");
      assert AllWords(words[1..]) by {
        assert forall k :: 0 <= k < |words| - 1 ==> words[1..][k] == words[k + 1];
      }
      JoinNormalised(words[1..]);
      JoinStartsWithFirst(words[1..], " ");
      assert rest[0] == words[1][0];
      assert Normalised(words[0]);
      NormalisedGlue(words[0], rest);
    }
  }

  /** What follows a space in a normalised string is normalised. */
  lemma NormalisedSuffix(t: string, n: nat)
    requires Normalised(t) && n < |t| && IsWhitespace(t[n])
    ensures t[n] == ' ' && n + 1 < |t| && !IsWhitespace(t[n + 1])
    ensures Normalised(t[n + 1..])
  {
    var u := t[n + 1..];
    assert n + 1 < |t|;
    assert forall j :: 0 <= j < |u| ==> u[j] == t[n + 1 + j];
    forall i, j | 0 <= i && j == i + 1 && j < |u|
      ensures !IsWhitespace(u[i]) || !IsWhitespace(u[j])
    {
      assert u[i] == t[n + 1 + i] && u[j] == t[n + 2 + i];
    }
  }

  /** The words after a single space are the words after it. */
  lemma SplitAfterSpace(u: string)
    requires |u| > 0 && !IsWhitespace(u[0])
    ensures Split(" " + u) == Split(u)
    ensures Split(u) != []
  {
    WhitespaceSpanExact(" ", u);
    SplitSkipsLeadingWhitespace(" " + u);
    assert (" " + u)[1..] == u;
    SplitEmptyIff(u);
  }

  /** A text that starts with a word splits into that word and the words of the remainder. */
  lemma SplitFirstWord(t: string)
    requires |t| > 0 && !IsWhitespace(t[0])
    ensures Split(t) == [t[..WordSpan(t)]] + Split(t[WordSpan(t)..])
  {
    assert WhitespaceSpan(t) == 0;
    TokenizeStep(t);
    assert t[0..] == t;
  }

  /** A normalised string is the single-space join of its words. */
  lemma {:induction false} NormalisedIsJoinOfSplit(t: string)
    requires Normalised(t)
    ensures Join(Split(t), " ") == t
    decreases |t|
  {
    if |t| > 0 {
      var n := WordSpan(t);
      assert !IsWhitespace(t[0]);
      if n < |t| {
        NormalisedSuffix(t, n);
        NormalisedIsJoinOfSplit(t[n + 1..]);
        JoinSplitAfterFirstWord(t, n);
      } else {
        SplitSingleWord(t);
      }
    }
  }

  /** A text with no whitespace is one word. */
  lemma SplitSingleWord(t: string)
    requires |t| > 0 && WordSpan(t) == |t|
    ensures Join(Split(t), " ") == t
  {
    SplitFirstWord(t);
    assert t[|t|..] == "";
    assert Split("") == [];
    assert t[..|t|] == t;
  }

  /** A word followed by one space: the word, then the words after the space. */
  lemma SplitWordSpace(t: string, n: nat)
    requires n == WordSpan(t) && n + 1 < |t| && !IsWhitespace(t[0])
    requires t[n] == ' ' && !IsWhitespace(t[n + 1])
    ensures Split(t) == [t[..n]] + Split(t[n + 1..])
    ensures Split(t[n + 1..]) != []
  {
    SplitFirstWord(t);
    assert t[n..] == " " + t[n + 1..];
    SplitAfterSpace(t[n + 1..]);
  }

  /** The induction step: first word, one space, then a text that is already the join of its words. */
  lemma JoinSplitAfterFirstWord(t: string, n: nat)
    requires n == WordSpan(t) && n + 1 < |t| && !IsWhitespace(t[0])
    requires t[n] == ' ' && !IsWhitespace(t[n + 1])
    requires Join(Split(t[n + 1..]), " ") == t[n + 1..]
    ensures Join(Split(t), " ") == t
  {
    var w, u := t[..n], t[n + 1..];
    SplitWordSpace(t, n);
    JoinCons(w, Split(u), " ");
    CutAround(t, n);
  }

  // ---------------------------------------------------------------------------
  // Properties of reverse_words

  /** The output's tokens are the input's tokens, each reversed, in the same order. */
  lemma ReverseWordsTokens(text: string)
    ensures |Split(ReverseWords(text))| == |Split(text)|
    ensures forall k :: 0 <= k < |Split(text)| ==>
      Split(ReverseWords(text))[k] == Reverse(Split(text)[k])
  {
    TokenizeSound(text);
    ReverseEachWords(Split(text));
    SplitJoin(ReverseEach(Split(text)));
  }

  /** The output is empty exactly when the input has no non-whitespace character. */
  lemma ReverseWordsEmpty(text: string)
    ensures ReverseWords(text) == "" <==> AllWhitespace(text)
  {
    TokenizeSound(text);
    SplitEmptyIff(text);
    var words := ReverseEach(Split(text));
    if |words| > 0 {
      ReverseEachWords(Split(text));
      JoinStartsWithFirst(words, " ");
      assert IsWord(words[0]);
    }
  }

  /** The output has no edge whitespace and single spaces between tokens. */
  lemma ReverseWordsNormalised(text: string)
    ensures Normalised(ReverseWords(text))
  {
    TokenizeSound(text);
    ReverseEachWords(Split(text));
    JoinNormalised(ReverseEach(Split(text)));
  }

  /** The output is exactly as long as the tokens plus one space between neighbours. */
  lemma ReverseWordsLength(text: string)
    ensures var n := |Split(text)|;
      |ReverseWords(text)| == SumLengths(Split(text)) + (if n == 0 then 0 else n - 1)
  {
    JoinLength(ReverseEach(Split(text)), " ");
    SumLengthsReverseEach(Split(text));
  }

  /** Applying the reverser twice gives back the text exactly when the text is
      already normalised (no edge whitespace, single spaces between tokens). */
  lemma ReverseWordsTwice(text: string)
    ensures ReverseWords(ReverseWords(text)) == text <==> Normalised(text)
  {
    TokenizeSound(text);
    ReverseEachWords(Split(text));
    SplitJoin(ReverseEach(Split(text)));
    ReverseEachTwice(Split(text));
    assert ReverseWords(ReverseWords(text)) == Join(Split(text), " ");
    if Normalised(text) {
      NormalisedIsJoinOfSplit(text);
    } else {
      JoinNormalised(Split(text));
    }
  }

  /** Trailing whitespace, such as the newline a Tk text widget appends, does
      not change the output. */
  lemma ReverseWordsIgnoresTrailingWhitespace(text: string, g: string)
    requires AllWhitespace(g)
    ensures ReverseWords(text + g) == ReverseWords(text)
  {
    SplitIgnoresTrailingWhitespace(text, g);
  }

  /** Reversing a single-space join reverses each of the joined words. */
  lemma ReverseWordsOfJoin(words: seq<string>)
    requires AllWords(words)
    ensures ReverseWords(Join(words, " ")) == Join(ReverseEach(words), " ")
  {
    SplitJoin(words);
  }

  lemma ReverseEachHelloWorld()
    ensures ReverseEach(["hello", "world"]) == ["olleh", "dlrow"]
  {
    ReverseFive("hello");
    ReverseFive("world");
    assert ReverseEach(["hello", "world"]) == [Reverse("hello"), Reverse("world")];
  }

  /** The reverse of a five-character word, spelled out. */
  lemma ReverseFive(w: string)
    requires |w| == 5
    ensures Reverse(w) == [w[4], w[3], w[2], w[1], w[0]]
  {
    assert forall i :: 0 <= i < 5 ==> Reverse(w)[i] == [w[4], w[3], w[2], w[1], w[0]][i];
  }

  lemma ReverseWordsExample()
    ensures ReverseWords("hello world") == "olleh dlrow"
  {
    HelloWorldWords();
    ReverseWordsOfJoin(["hello", "world"]);
    ReverseEachHelloWorld();
  }

  lemma HelloWorldWords()
    ensures AllWords(["hello", "world"])
    ensures Join(["hello", "world"], " ") == "hello world"
    ensures Join(["olleh", "dlrow"], " ") == "olleh dlrow"
  {
    var words := ["hello", "world"];
    assert IsWord(words[0]) && IsWord(words[1]);
  }

  // ---------------------------------------------------------------------------
  // The plugin as the editor loads it

  const Name := "Word Reverser"

  /** A `WordReverser()` instance: both methods are static and never raise. */
  const Instance := Processor(Ok(Name), (text: string) => Ok(ReverseWords(text)))

  /** The namespace word_reverser.py defines, in definition order after the
      entries Python puts first. */
  const Source := SourceFile(Ok([
    Other("__name__"), Other("__doc__"), Other("__package__"), Other("__loader__"),
    Other("__spec__"), Other("__file__"), Other("__cached__"), Other("__builtins__"),
    Other("reverse_words"),
    Class("WordReverser", true, true, true, Ok(Instance))
  ]))

  /** `WordReverser.process` is `reverse_words` and `get_name` is "Word Reverser". */
  lemma InstanceBehaviour(text: string)
    ensures Instance.getName == Ok("Word Reverser")
    ensures Instance.process(text) == Ok(ReverseWords(text))
  {
  }
}
